=== FILE: README.md ===
# Hello Buğra voice assistant: phrase matching and activation

This project is a Dafny model of the logic inside `src/App.tsx`, the single React component
of a browser voice-activation widget. The widget listens through the Web Speech API. It
normalises each transcript and compares it with a user-configurable activation phrase. When
the phrase is heard it turns "active" for three seconds.

The model covers:

- `sanitizeWhitespace`, the whitespace collapse and trim every form goes through
  (`whitespace.dfy`). It is specified independently as the words of the input joined by
  single spaces.
- The character folds `/[^\p{L}\s]/gu` and `/[^a-z\s]/g`, and `String.prototype.includes`
  (`folding.dfy`). The ASCII fold has no `u` flag, so it works on UTF-16 code units: a
  character above U+FFFF becomes two spaces.
- `buildPhraseVariants`, the fallback to the default phrase `merhaba buğra`, and
  `formatIdleHeadline` (`variants.dfy`).
- The `onresult` matcher: the combined transcript from `resultIndex` on, its six candidate
  forms, and the `some`/`some`/`includes` decision (`matcher.dfy`).
- The activation guard: `triggerActivation`, `resetToIdle`, and the revert timer, whose ids
  are tracked as a set of pending timers (`activation.dfy`).
- The recognition session: the microphone answer, the `onerror` classifier, `onend` and its
  restart timer, and the unmount clean-up (`recognition.dfy`).
- The whole component as one state (`assistant.dfy`). This covers the load, persist and
  idle-headline effects in React's order, `handlePhraseChange` and `handlePhraseSubmit`, and
  an invariant that every event keeps. The `phraseVariantsRef` ref is recorded as the
  computation that filled it: the variants of a phrase, with or without the fallback to the
  default's. The list is computed from that whenever the matcher reads it, which gives the
  same list because the computation is deterministic.

The Unicode library calls are not defined. These are `toLowerCase`, NFD followed by
`\p{Diacritic}` removal, and the `\p{L}` test. They are the fields of a `Unicode` record, and
every result holds for every such record. Where a result needs more of `toLowerCase`, its
contract says so, and two assumptions appear:

- `Faithful`: lower-casing leaves the default phrase unchanged. The results that the matcher
  always has variants rest on it.
- In `BlankPhraseUsesDefault`: lower-casing keeps a blank phrase blank.

Behaviour of the code worth knowing:

- Only two of the six transcript candidates are sanitised (`src/App.tsx:210-217`). The raw
  lower-cased text, the letters-only text, the diacritic-free text and the ASCII text keep
  their whitespace as it is. So not every candidate is free of double or edge whitespace.
- A `not-allowed` error marks permission as denied and shows a message, but recognition keeps
  running: `onend` still schedules restarts (`src/App.tsx:231-233`, `241-250`).
- A stored value that is the empty string is treated like a missing one (`if (stored)`). A
  stored value is loaded as it is, and sanitised only by the persist effect that follows.
- On mount the persist effect of the first commit still sees the default phrase, so it
  briefly stores the default. The second commit, caused by the loaded phrase, then stores the
  sanitised loaded phrase. `Assistant.Mount` models both commits, and the end state uses the
  sanitised stored phrase. Each commit's effects run once, as in a production build.

## Model

| member | source | states |
|---|---|---|
| `Whitespace.SanitizeShape` | src/App.tsx:48 | The sanitised string has no whitespace at either end. Its only whitespace is the plain space, and never two in a row. Every other character of it occurs in the input. |
| `Whitespace.SanitizeFixedPoints` | src/App.tsx:48 | The sanitiser leaves a string unchanged exactly when the string already has the sanitised shape. |
| `Whitespace.SanitizeIdempotent` | src/App.tsx:48 | Sanitising twice is the same as sanitising once. |
| `Whitespace.SanitizeEmpty` | src/App.tsx:48 | The sanitised string is empty exactly when the input is all whitespace (the falsy case the callers test). |
| `Whitespace.SanitizeJoinsWords` | src/App.tsx:48 | The sanitised string equals the maximal whitespace-free runs of the input joined by single spaces. |
| `Whitespace.WordsAppend` | src/App.tsx:202 | When two strings meet at whitespace, the words of their concatenation are the words of each, in order. |
| `Whitespace.JoinWords` | src/App.tsx:202 | The words of strings joined by spaces are the words of each string, in order. |
| `Whitespace.TrimWords` | src/App.tsx:202 | `trim()` does not change the words. |
| `Whitespace.TrimSpec` | src/App.tsx:202 | `trim()` leaves no whitespace at either end, and yields empty exactly for all-whitespace input. |
| `Folding.LettersOnly` | src/App.tsx:64 | The letters-only fold keeps the length. Letters and whitespace are kept in place, and every other character becomes one space. |
| `Folding.AsciiOnly` | src/App.tsx:66 | The ASCII fold has the input's UTF-16 length. It holds only `a`-`z` and whitespace. |
| `Folding.AsciiOnlyInPlace` | src/App.tsx:66 | On text without surrogate pairs the ASCII fold keeps the length. `a`-`z` and whitespace stay in place, and every other character becomes one space. |
| `Folding.AsciiOnlyAppend` | src/App.tsx:66 | The ASCII fold of a concatenation is the concatenation of the folds. A character above U+FFFF folds to two spaces. |
| `Folding.AsciiOnlyFixedPoints` | src/App.tsx:66 | The ASCII fold leaves a string unchanged exactly when it holds only `a`-`z` and whitespace. |
| `Folding.AsciiCollapsedShape` | src/App.tsx:66-67 | The sanitised ASCII fold holds only `a`-`z` and single spaces, with no space at either end. |
| `Folding.JoinHasPart` | src/App.tsx:202 | Each transcript occurs, at some index, in the transcripts joined by spaces. |
| `Folding.TrimKeepsOccurrence` | src/App.tsx:202 | `trim()` keeps every occurrence of a non-empty text that neither starts nor ends with whitespace. |
| `Folding.IncludesSpec` | src/App.tsx:220 | `includes` holds exactly when the needle occurs at some index of the haystack. |
| `Variants.RemoveEmpty` | src/App.tsx:78 | `filter(Boolean)` keeps exactly the non-empty elements, and keeps a non-empty first element first. |
| `Variants.Dedup` | src/App.tsx:79-81 | Spreading the `Set` yields no repeats and the same members, headed by the first element. |
| `Variants.DedupDistinct` | src/App.tsx:79-81 | A list without repeats comes out of the `Set` unchanged. |
| `Variants.BuildPhraseVariants` | src/App.tsx:55-82 | Empty exactly when the lower-cased, sanitised phrase is empty. Otherwise that phrase comes first. Every variant is non-empty and sanitised, and none repeats. |
| `Variants.VariantsAreSanitized` | src/App.tsx:77-81 | Every variant is a fixed point of the sanitiser. |
| `Variants.VariantsAreForms` | src/App.tsx:62-81 | The variants are exactly the non-empty ones among the six sanitised forms. |
| `Variants.AsciiVariant` | src/App.tsx:63-67 | A non-empty ASCII-collapsed form is a variant. It holds only `a`-`z` and single spaces, with none at either end. |
| `Variants.LettersVariant` | src/App.tsx:64-65 | A non-empty letters-only form is a variant. It holds only letters and spaces. |
| `Variants.EffectivePhrase` | src/App.tsx:356-357 | The effective phrase is never empty and always sanitised. It is the sanitised phrase whenever that is not empty. |
| `Variants.EffectivePhraseFallback` | src/App.tsx:333-337 | The effective phrase is the default exactly for an all-whitespace phrase, and otherwise the sanitised phrase. A sanitised non-empty phrase is its own effective phrase. |
| `Variants.EffectivePhraseIdempotent` | src/App.tsx:336-338 | The effective phrase of the effective phrase is itself. |
| `Variants.EffectiveVariants` | src/App.tsx:330-332 | The matcher's variants are the phrase's own, or the default's when the phrase has none. They are never empty when lower-casing keeps the default. |
| `Variants.BlankPhraseUsesDefault` | src/App.tsx:330-333 | A blank phrase has the default as its effective phrase. When lower-casing keeps it blank, it is matched with the default's variants, the same variants its effective phrase gives. |
| `Variants.HeadlineNamesPhrase` | src/App.tsx:50-51 | The idle headline can be read back to the phrase it names, or to the default for an empty phrase. |
| `Matcher.FirstAlternatives` | src/App.tsx:197-200 | The first transcripts are collected exactly when every result has an alternative, one per result and in order. |
| `Matcher.CombinedTranscript` | src/App.tsx:195-202 | A combined transcript exists exactly when every new result has an alternative. It is trimmed. |
| `Matcher.CombinedWords` | src/App.tsx:195-202 | The combined transcript holds the words of each new result's first transcript, result by result and in order. Sanitised, it is exactly those words joined by single spaces. |
| `Matcher.SplitPhraseCombines` | src/App.tsx:195-202 | The results "merhaba" and "buğra" combine to "merhaba buğra". |
| `Matcher.CombinedHasEachTranscript` | src/App.tsx:195-202 | Every new result's first transcript, trimmed, is included in the combined transcript. |
| `Matcher.LastHeard` | src/App.tsx:203 | The "last heard" line is never empty. It is the combined transcript whenever that is not empty. |
| `Matcher.Candidates` | src/App.tsx:205-217 | A string is a candidate exactly when it is non-empty and is one of the six forms: the lower-cased transcript, its letters-only fold and that fold sanitised, its diacritic-free form, that form's ASCII fold and that fold sanitised. |
| `Matcher.ShouldActivate` | src/App.tsx:219-221 | The scan answers true exactly when some variant is included in some candidate. |
| `Matcher.MatchesSpec` | src/App.tsx:210-221 | Activation is decided exactly when some variant occurs at some index of some non-empty candidate. |
| `Matcher.PhraseHeardActivates` | src/App.tsx:202-221 | If the lower-cased transcript contains the lower-cased, sanitised phrase, the effective variants match the candidates. |
| `Matcher.AsciiHeardActivates` | src/App.tsx:205-221 | If the sanitised ASCII fold of the transcript contains the phrase's non-empty ASCII variant, the effective variants match the candidates. |
| `Matcher.LettersHeardActivates` | src/App.tsx:205-221 | If the sanitised letters-only fold of the transcript contains the phrase's non-empty letters-only variant, the effective variants match the candidates. |
| `Activation.InitialController` | src/App.tsx:86-98 | The first controller is idle, with nothing pending, and keeps the controller invariant. |
| `Activation.Trigger` | src/App.tsx:136-154 | While triggering it changes nothing. From idle it turns active with the active texts and one more chime. It leaves exactly one pending revert, a new one, and keeps the invariant. |
| `Activation.ResetToIdle` | src/App.tsx:129-134 | The guard is cleared and the state is idle. The status is the listening text, and the headline names the given phrase. Timers and the chime count are untouched. |
| `Activation.RevertFires` | src/App.tsx:151-153 | Only a pending revert timer has an effect. It returns to idle with the idle headline and is no longer pending. Nothing else about timers or chimes changes, and the invariant is kept. |
| `Activation.CancelRevert` | src/App.tsx:280-282 | The clean-up cancels the remembered revert timer, so no revert is left pending. Nothing but the set of pending timers changes. |
| `Activation.TriggerIdempotent` | src/App.tsx:137-139 | A second trigger changes nothing. |
| `Activation.TriggerThenRevert` | src/App.tsx:136-154 | A trigger from idle followed by its own revert ends idle, with nothing pending, the idle texts, and exactly one chime. |
| `Activation.AtMostOneRevert` | src/App.tsx:147-153 | After a trigger at most one revert timer is pending. |
| `Recognition.Classify` | src/App.tsx:231-238 | `not-allowed` and `service-not-allowed` are permission errors, `no-speech` is ignored, and every other code is transient. |
| `Recognition.StartSession` | src/App.tsx:156-166 | Without a recognition constructor the unsupported message is shown. Otherwise the microphone is requested and no error shows. Permission is pending, nothing was heard, no restart is pending, and the controller is the one given. |
| `Recognition.PermissionAnswered` | src/App.tsx:167-182 | While mounted and waiting, a grant starts listening and a refusal denies with the microphone message. Nothing else changes. After unmount nothing but the wait changes. |
| `Recognition.OnError` | src/App.tsx:228-239 | A permission error denies and shows the blocked message. `no-speech` changes nothing. Any other code shows the transient message and keeps the permission. Nothing else changes. |
| `Recognition.OnEnd` | src/App.tsx:241-250 | A restart is scheduled exactly when the session is mounted and listening. Nothing else changes. |
| `Recognition.RestartFires` | src/App.tsx:243-249 | The restart clears the pending restart and changes nothing else. |
| `Recognition.OnResult` | src/App.tsx:194-226 | A readable result shows what was heard. It triggers exactly when the candidates match, and changes nothing else. An unreadable result changes nothing. |
| `Recognition.RevertTimerFires` | src/App.tsx:151-153 | The revert timer acts on the controller only. |
| `Recognition.Unmount` | src/App.tsx:273-302 | After unmount nothing listens, no restart is pending, and no revert is pending. |
| `Recognition.ResultActivatesIff` | src/App.tsx:219-225 | From idle, a result activates exactly when its candidates match the variants. |
| `Assistant.StoredPhrase` | src/App.tsx:313-316 | The load finds a phrase exactly when storage works and holds a non-empty value under the key. |
| `Assistant.Persist` | src/App.tsx:335-341 | Writing sets the key when storage works and changes nothing when it throws. |
| `Assistant.StoredAfterPersist` | src/App.tsx:315-338 | A non-empty value written to working storage is what the next load finds. |
| `Assistant.LoadEffect` | src/App.tsx:313-327 | A stored phrase becomes the pending, active and effective phrase, gives the variants, and names the headline. The storage, the feedback and the rest of the session are unchanged. Without a stored phrase nothing changes. |
| `Assistant.PersistEffect` | src/App.tsx:329-342 | The variants and effective phrase follow the active phrase, and the effective phrase is stored. |
| `Assistant.HeadlineEffect` | src/App.tsx:373-377 | While idle the headline names the effective phrase. While active nothing changes. |
| `Assistant.CommitInv` | src/App.tsx:329-377 | The effects of a commit establish the invariant. |
| `Assistant.MountEstablishes` | src/App.tsx:85-100 | Mounting gives a mounted, idle state that keeps the invariant. It uses the effective form of the stored phrase, or the default. Each commit's effects run once, as in a production build. |
| `Assistant.Submit` | src/App.tsx:353-364 | The active phrase becomes the effective form of the field, and the field keeps its text. The feedback reports a reversion exactly when the field was blank. Storage is written with the new phrase exactly when the phrase changed. The session changes in nothing but the headline. |
| `Assistant.SessionEventsKeepInv` | src/App.tsx:194-302 | Every recognition, timer, permission and unmount event keeps the invariant. |
| `Assistant.FormEventsKeepInv` | src/App.tsx:344-371 | Editing, submitting and feedback expiry keep the invariant. |
| `Assistant.SubmitStoresEffective` | src/App.tsx:356-358 | After a submit, the active, effective and stored phrase are all the effective form of the field. |
| `Assistant.VariantsNeverEmpty` | src/App.tsx:330-332 | In every state that keeps the invariant the matcher has variants. |
| `Assistant.RestoreRoundTrip` | src/App.tsx:313-338 | Storing the effective phrase and mounting again restores it, with each commit's effects run once as in a production build. |
| `Assistant.HeardPhraseActivates` | src/App.tsx:202-225 | While listening and idle, a transcript containing the lower-cased, sanitised active phrase activates the assistant. |

## Left out

- Unicode semantics: `toLowerCase`, NFD with `\p{Diacritic}` removal, and `\p{L}` are
  uninterpreted, including locale effects such as the Turkish dotted `İ`. Strings are
  sequences of scalar values, so lone surrogates cannot be represented.
- `Variants.EffectiveVariants`: for a phrase that is not blank, it is not stated to equal the
  variants of `EffectivePhrase`. That would need lower-casing to commute with sanitising,
  which the uninterpreted `toLowerCase` does not promise. `BlankPhraseUsesDefault` states it
  for blank phrases.
- `Assistant.Mount`: it carries no contract of its own. Its properties are stated by
  `MountEstablishes` and `RestoreRoundTrip`.
- `Assistant.Mount`: each commit's effects run once, as in a production build. The development
  double run of mount effects under `StrictMode` (`src/main.tsx:12-16`) is not modelled. Read
  against React's effect semantics, that second run's load effect finds the default the first
  persist effect just wrote. It queues the default after the stored phrase, so the stored phrase
  is overwritten by the default on every development load. `MountEstablishes` and
  `RestoreRoundTrip` therefore describe production builds only.
- The activation tone (`playActivationSound`): floating-point audio synthesis. Only the number
  of tones requested is counted.
- `getUserMedia`: only the granted or refused outcome is modelled.
- Recognition construction, configuration, `start` and `stop`: browser calls. Their failures
  are only logged.
- Timer durations (300 ms, 2000 ms, 3000 ms) are recorded as constants (`RestartDelayMs`,
  `FeedbackDelayMs`, `RevertDelayMs`) for documentation only; no member uses them. Time itself is not
  modelled: a timer firing is an event.
- The restart timer is a flag, not a handle. The source overwrites `restartHandle` when `onend`
  fires twice, so an earlier restart can outlive unmount. This case is not modelled.
- `localStorage` is a map that is either working or throwing on every access. Quotas and
  partial failures are not modelled.
- React scheduling beyond effect order: batching, re-render timing, and the separate
  unmount-only effect at `src/App.tsx:304-311`, which repeats the revert clean-up.
- The feedback timer is only an expiry event. Its re-arming when the feedback changes is not
  modelled.
- Rendering (JSX, Tailwind classes), `src/main.tsx`, `tailwind.config.js`, and console
  logging.

=== FILE: activation.dfy ===
/**
  The activation guard: `triggerActivation`, `resetToIdle` and the revert
  timer that links them. Timers are identified by the positive ids
  `window.setTimeout` hands out; the model keeps the set of revert timers that
  are scheduled and have neither fired nor been cleared.
 */
module Activation {
  import opened Variants

  const ListeningStatus: string := "🎤 Dinleniyor..."
  const ActiveStatus: string := "🟢 Asistan aktif"
  const ActiveHeadline: string := "✅ Asistan aktif!"

  /** How long the assistant stays active before the revert timer fires. */
  const RevertDelayMs: nat := 3000

  datatype Controller = Controller(
    triggering: bool,   // isTriggeringRef.current
    active: bool,       // isActive
    status: string,     // statusText
    headline: string,   // headlineText
    revertTimer: nat,   // resetTimeoutRef.current, with 0 for null
    pending: set<nat>,  // revert timers scheduled and not yet fired or cleared
    nextTimer: nat,     // the id the next window.setTimeout returns
    chimes: nat         // activation sounds requested
  )

  /** The controller before any activation, showing the idle headline for
      `phrase`. */
  function InitialController(phrase: string): (c: Controller)
    ensures Live(c) && !c.active
  {
    Controller(false, false, ListeningStatus, FormatIdleHeadline(phrase), 0, {}, 1, 0)
  }

  /** Bookkeeping every reachable controller keeps: the guard and the active
      flag agree, only the remembered revert timer can be pending, and timer
      ids are positive and handed out in increasing order. */
  predicate Valid(c: Controller) {
    && c.triggering == c.active
    && c.pending <= {c.revertTimer}
    && 0 !in c.pending
    && c.revertTimer < c.nextTimer
  }

  /** While the component is mounted, a revert is pending exactly when the
      assistant is active. */
  predicate Live(c: Controller) {
    Valid(c) && (c.triggering <==> c.pending != {})
  }

  /** `triggerActivation`. */
  function Trigger(c: Controller): (r: Controller)
    ensures c.triggering ==> r == c
    ensures !c.triggering ==>
      && r.triggering && r.active
      && r.status == ActiveStatus && r.headline == ActiveHeadline
      && r.chimes == c.chimes + 1
    ensures Valid(c) && !c.triggering ==> r.pending == {r.revertTimer} && r.revertTimer !in c.pending
    ensures Valid(c) ==> Valid(r)
    ensures Live(c) ==> Live(r)
  {
    if c.triggering then c
    else
      var cleared := if c.revertTimer != 0 then c.pending - {c.revertTimer} else c.pending;
      c.(triggering := true, active := true,
         status := ActiveStatus, headline := ActiveHeadline,
         chimes := c.chimes + 1,
         pending := cleared + {c.nextTimer},
         revertTimer := c.nextTimer, nextTimer := c.nextTimer + 1)
  }

  /** `resetToIdle`, with `phrase` the current effective phrase. The revert
      timer reference is not cleared. */
  function ResetToIdle(c: Controller, phrase: string): (r: Controller)
    ensures !r.triggering && !r.active
    ensures r.status == ListeningStatus && r.headline == FormatIdleHeadline(phrase)
    ensures r.pending == c.pending && r.revertTimer == c.revertTimer
    ensures r.chimes == c.chimes && r.nextTimer == c.nextTimer
    ensures Valid(c) ==> Valid(r)
  {
    c.(triggering := false, active := false,
       status := ListeningStatus, headline := FormatIdleHeadline(phrase))
  }

  /** Timer `h` fires: when it is a pending revert, the assistant goes idle. */
  function RevertFires(c: Controller, h: nat, phrase: string): (r: Controller)
    ensures h !in c.pending ==> r == c
    ensures h in c.pending ==> !r.active && r.headline == FormatIdleHeadline(phrase)
    ensures h in c.pending ==> r.pending == c.pending - {h} && r.revertTimer == c.revertTimer
    ensures r.chimes == c.chimes && r.nextTimer == c.nextTimer
    ensures Valid(c) ==> Valid(r)
    ensures Live(c) ==> Live(r)
  {
    if h in c.pending then ResetToIdle(c.(pending := c.pending - {h}), phrase) else c
  }

  /** The unmount clean-up clears the remembered revert timer. */
  function CancelRevert(c: Controller): (r: Controller)
    ensures Valid(c) ==> Valid(r) && r.pending == {}
    ensures r.pending <= c.pending && (c.revertTimer != 0 ==> c.revertTimer !in r.pending)
    ensures r.(pending := c.pending) == c
  {
    if c.revertTimer != 0 then c.(pending := c.pending - {c.revertTimer}) else c
  }

  /** A second trigger while active changes nothing. */
  lemma TriggerIdempotent(c: Controller)
    ensures Trigger(Trigger(c)) == Trigger(c)
  {
  }

  /** An activation from idle followed by its revert returns to idle showing
      the idle headline, with nothing pending and one more chime. */
  lemma TriggerThenRevert(c: Controller, phrase: string)
    requires Live(c) && !c.active
    ensures var t := Trigger(c);
      var r := RevertFires(t, t.revertTimer, phrase);
      && t.active && !r.active && r.pending == {} && Live(r)
      && r.status == ListeningStatus && r.headline == FormatIdleHeadline(phrase)
      && r.chimes == c.chimes + 1
  {
  }

  /** Activations that follow each other never leave two reverts pending: a
      trigger from idle cancels whatever revert was remembered. */
  lemma AtMostOneRevert(c: Controller)
    requires Valid(c)
    ensures |Trigger(c).pending| <= 1
  {
    if !c.triggering {
      assert Trigger(c).pending == {Trigger(c).revertTimer};
    } else {
      assert c.pending <= {c.revertTimer};
      SubsetOfSingleton(c.pending, c.revertTimer);
    }
  }

  lemma SubsetOfSingleton(s: set<nat>, x: nat)
    requires s <= {x}
    ensures |s| <= 1
  {
    if s != {} {
      assert s == {x};
    }
  }
}

=== FILE: assistant.dfy ===
/**
  The whole assistant as one state and the events that change it: recognition
  callbacks, timers, the microphone answer, and the phrase form. Each event is
  followed by the effects React runs because of it: the persist effect when
  the active phrase changes, and the idle-headline effect.
 */
module Assistant {
  import opened Wrappers
  import opened Whitespace
  import opened Folding
  import opened Variants
  import opened Matcher
  import opened Activation
  import opened Recognition

  /** `STORAGE_KEY`. */
  const StorageKey: string := "hello-bugra-assistant.activationPhrase"
  const UpdatedFeedback: string := "Aktivasyon ifadesi güncellendi."
  const RevertedFeedback: string := "Varsayılan ifadeye dönüldü."

  /** How long the phrase feedback stays visible. */
  const FeedbackDelayMs: nat := 2000

  /** `localStorage`. When it is unavailable every access throws, and the
      program only logs the failure. */
  datatype Storage = Storage(available: bool, items: map<string, string>)

  /** What the load effect reads: the stored phrase, when there is a
      non-empty one. */
  function StoredPhrase(st: Storage): (r: Option<string>)
    ensures r.Some? <==> st.available && StorageKey in st.items && st.items[StorageKey] != []
    ensures r.Some? ==> r.value == st.items[StorageKey]
  {
    if st.available && StorageKey in st.items && st.items[StorageKey] != []
    then Some(st.items[StorageKey]) else None
  }

  /** `localStorage.setItem(STORAGE_KEY, value)`. */
  function Persist(st: Storage, value: string): (r: Storage)
    ensures r.available == st.available
    ensures !st.available ==> r == st
    ensures st.available ==> r.items == st.items[StorageKey := value]
  {
    if st.available then st.(items := st.items[StorageKey := value]) else st
  }

  /** A non-empty value persisted to available storage is what is read back. */
  lemma StoredAfterPersist(st: Storage, value: string)
    requires st.available && value != []
    ensures StoredPhrase(Persist(st, value)) == Some(value)
  {
  }

  /** What `phraseVariantsRef` holds, named by the computation that produced
      it: the variants of a phrase as they are, or with the fallback to the
      default phrase's variants. The computation is deterministic, so the list
      itself is `Resolve`d from this whenever it is read. */
  datatype VariantsRef = Built(phrase: string) | WithFallback(phrase: string)

  /** The list of variants a `VariantsRef` stands for. */
  function Resolve(u: Unicode, v: VariantsRef): seq<string> {
    match v
    case Built(p) => BuildPhraseVariants(u, p)
    case WithFallback(p) => EffectiveVariants(u, p)
  }

  datatype Phrases = Phrases(
    pending: string,          // pendingPhrase: the text field
    active: string,           // activePhrase
    variants: VariantsRef,    // phraseVariantsRef.current
    effective: string,        // activePhraseRef.current
    feedback: Option<string>  // phraseFeedback
  )

  datatype App = App(session: Session, phrases: Phrases, storage: Storage)

  /** What holds between events: the refs follow the active phrase, the
      storage holds the effective phrase, and the headline is the active one
      while active and names the effective phrase while idle. */
  predicate Inv(u: Unicode, a: App) {
    && SessionOk(a.session)
    && a.phrases.variants == WithFallback(a.phrases.active)
    && a.phrases.effective == EffectivePhrase(a.phrases.active)
    && (a.storage.available ==> StoredPhrase(a.storage) == Some(a.phrases.effective))
    && (a.session.controller.active ==> a.session.controller.headline == ActiveHeadline)
    && (!a.session.controller.active ==>
          a.session.controller.headline == FormatIdleHeadline(a.phrases.effective))
  }

  /** The effect that loads the stored phrase on mount. */
  function LoadEffect(u: Unicode, a: App): (r: App)
    ensures StoredPhrase(a.storage).None? ==> r == a
    ensures StoredPhrase(a.storage).Some? ==>
      var x := StoredPhrase(a.storage).value;
      && r.phrases.pending == x && r.phrases.active == x && r.phrases.effective == x
      && Resolve(u, r.phrases.variants) == BuildPhraseVariants(u, x)
      && r.session.controller.headline == FormatIdleHeadline(x)
    ensures r.storage == a.storage && r.phrases.feedback == a.phrases.feedback
    ensures r.session.(controller := a.session.controller) == a.session
    ensures r.session.controller.(headline := a.session.controller.headline) == a.session.controller
  {
    match StoredPhrase(a.storage)
    case None => a
    case Some(x) =>
      a.(phrases := a.phrases.(pending := x, active := x,
                               variants := Built(x), effective := x),
         session := a.session.(controller := a.session.controller.(headline := FormatIdleHeadline(x))))
  }

  /** The effect on the active phrase `active` of the render it belongs to:
      refresh the variants and the effective phrase, and persist it. */
  function PersistEffect(u: Unicode, a: App, active: string): (r: App)
    ensures Resolve(u, r.phrases.variants) == EffectiveVariants(u, active)
    ensures r.phrases.effective == EffectivePhrase(active)
    ensures r.storage == Persist(a.storage, EffectivePhrase(active))
    ensures r.session == a.session
    ensures r.phrases.(variants := a.phrases.variants, effective := a.phrases.effective) == a.phrases
  {
    a.(phrases := a.phrases.(variants := WithFallback(active),
                             effective := EffectivePhrase(active)),
       storage := Persist(a.storage, EffectivePhrase(active)))
  }

  /** The effect that shows the idle headline for the effective phrase while
      the assistant is idle. */
  function HeadlineEffect(a: App): (r: App)
    ensures r.phrases == a.phrases && r.storage == a.storage
    ensures !a.session.controller.active ==>
      r.session.controller.headline == FormatIdleHeadline(a.phrases.effective)
    ensures a.session.controller.active ==> r == a
    ensures r.session.(controller := a.session.controller) == a.session
    ensures r.session.controller.(headline := a.session.controller.headline) == a.session.controller
  {
    if a.session.controller.active then a
    else a.(session := a.session.(controller :=
             a.session.controller.(headline := FormatIdleHeadline(a.phrases.effective))))
  }

  /** The effects of a commit in which the active phrase is `active`. */
  function Commit(u: Unicode, a: App, active: string): App {
    HeadlineEffect(PersistEffect(u, a, active))
  }

  /** The first render and its effects: the session starts, the stored
      phrase is loaded, and the persist effect of that first commit still sees
      the default phrase. When loading changed the active phrase, a second
      commit follows. */
  function Mount(u: Unicode, supported: bool, st: Storage): App {
    var phrases := Phrases(DefaultPhrase, DefaultPhrase,
                           Built(DefaultPhrase), DefaultPhrase, None);
    var a0 := App(StartSession(supported, InitialController(DefaultPhrase)), phrases, st);
    var a1 := Commit(u, LoadEffect(u, a0), DefaultPhrase);
    if a1.phrases.active == DefaultPhrase then a1
    else Commit(u, a1, a1.phrases.active)
  }

  /** The effects of a commit leave the invariant holding, whatever came
      before, as long as the session and the active headline are in order. */
  lemma CommitInv(u: Unicode, a: App, active: string)
    requires SessionOk(a.session) && a.phrases.active == active
    requires a.session.controller.active ==> a.session.controller.headline == ActiveHeadline
    ensures Inv(u, Commit(u, a, active))
  {
    var p := PersistEffect(u, a, active);
    if a.storage.available {
      StoredAfterPersist(a.storage, EffectivePhrase(active));
    }
    assert p.phrases.active == active;
    var r := HeadlineEffect(p);
    assert r.phrases == p.phrases && r.storage == p.storage;
    assert SessionOk(r.session);
  }

  /** Mounting yields a state that keeps the invariant, idle, and using the
      stored phrase (sanitised) or else the default. */
  lemma MountEstablishes(u: Unicode, supported: bool, st: Storage)
    ensures var r := Mount(u, supported, st);
      && Inv(u, r) && r.session.mounted && !r.session.controller.active
      && r.phrases.effective ==
           (if StoredPhrase(st).Some? then EffectivePhrase(StoredPhrase(st).value) else DefaultPhrase)
  {
    DefaultSanitized();
    SanitizeFixedPoints(DefaultPhrase);
    var phrases := Phrases(DefaultPhrase, DefaultPhrase,
                           Built(DefaultPhrase), DefaultPhrase, None);
    var a0 := App(StartSession(supported, InitialController(DefaultPhrase)), phrases, st);
    var l := LoadEffect(u, a0);
    var a1 := Commit(u, l, DefaultPhrase);
    if a1.phrases.active == DefaultPhrase {
      CommitInv(u, l, DefaultPhrase);
    } else {
      CommitInv(u, a1, a1.phrases.active);
    }
  }

  /** `handlePhraseSubmit`, followed by the effects of the new active phrase. */
  function Submit(u: Unicode, a: App): (r: App)
    ensures r.phrases.active == EffectivePhrase(a.phrases.pending)
    ensures r.phrases.feedback ==
      Some(if AllWhitespace(a.phrases.pending) then RevertedFeedback else UpdatedFeedback)
    ensures r.phrases.pending == a.phrases.pending
    ensures r.storage == (if r.phrases.active == a.phrases.active then a.storage
                          else Persist(a.storage, r.phrases.active))
    ensures r.session.(controller := a.session.controller) == a.session
    ensures r.session.controller.(headline := a.session.controller.headline) == a.session.controller
  {
    SanitizeEmpty(a.phrases.pending);
    EffectivePhraseFallback(a.phrases.pending);
    EffectivePhraseIdempotent(a.phrases.pending);
    var sanitized := Sanitize(a.phrases.pending);
    var next := if sanitized != [] then sanitized else DefaultPhrase;
    var feedback := if sanitized != [] then UpdatedFeedback else RevertedFeedback;
    var b := a.(phrases := a.phrases.(active := next, feedback := Some(feedback)));
    if next == a.phrases.active then b else Commit(u, b, next)
  }

  // ----- events: each handler and the effects it causes -----
  // After unmount the handlers are detached and the component is gone, so
  // every event leaves the state alone.

  /** A recognition result arrives. */
  function Heard(u: Unicode, a: App, results: seq<seq<string>>, resultIndex: nat): App {
    if !a.session.mounted then a
    else a.(session := OnResult(a.session, u, Resolve(u, a.phrases.variants), results, resultIndex))
  }

  /** The recognition reports an error. */
  function RecognitionError(a: App, code: string): App {
    if !a.session.mounted then a else a.(session := OnError(a.session, code))
  }

  /** The recognition ends. */
  function RecognitionEnded(a: App): App {
    if !a.session.mounted then a else a.(session := OnEnd(a.session))
  }

  /** The restart timer fires. */
  function RestartTimer(a: App): App {
    if !a.session.mounted then a else a.(session := RestartFires(a.session))
  }

  /** Timer `h` fires; a pending revert returns the assistant to idle with the
      idle headline of the effective phrase. */
  function RevertTimer(a: App, h: nat): App {
    if !a.session.mounted then a
    else a.(session := RevertTimerFires(a.session, h, a.phrases.effective))
  }

  /** The microphone request answers. */
  function MicrophoneAnswered(a: App, granted: bool): App {
    if !a.session.mounted then a else a.(session := PermissionAnswered(a.session, granted))
  }

  /** `handlePhraseChange`. */
  function PhraseEdited(a: App, text: string): App {
    if !a.session.mounted then a else a.(phrases := a.phrases.(pending := text))
  }

  /** The form is submitted. */
  function PhraseSubmitted(u: Unicode, a: App): App {
    if !a.session.mounted then a else Submit(u, a)
  }

  /** The feedback timer fires. */
  function FeedbackExpires(a: App): App {
    if !a.session.mounted then a else a.(phrases := a.phrases.(feedback := None))
  }

  /** The component unmounts. */
  function Unmounted(a: App): App {
    if !a.session.mounted then a else a.(session := Unmount(a.session))
  }

  /** A new session keeps the invariant when it is in order and its headline
      matches its activity. */
  lemma SessionStepInv(u: Unicode, a: App, s: Session)
    requires Inv(u, a) && SessionOk(s)
    requires s.controller.active == a.session.controller.active
    requires s.controller.headline == a.session.controller.headline
    ensures Inv(u, a.(session := s))
  {
  }

  /** Every recognition and timer event keeps the invariant. */
  lemma SessionEventsKeepInv(u: Unicode, a: App, code: string, granted: bool, h: nat,
                             results: seq<seq<string>>, resultIndex: nat)
    requires Inv(u, a)
    ensures Inv(u, Heard(u, a, results, resultIndex))
    ensures Inv(u, RecognitionError(a, code))
    ensures Inv(u, RecognitionEnded(a))
    ensures Inv(u, RestartTimer(a))
    ensures Inv(u, RevertTimer(a, h))
    ensures Inv(u, MicrophoneAnswered(a, granted))
    ensures Inv(u, Unmounted(a))
  {
    if a.session.mounted {
      HeardKeepsInv(u, a, results, resultIndex);
      SessionStepInv(u, a, OnError(a.session, code));
      SessionStepInv(u, a, OnEnd(a.session));
      SessionStepInv(u, a, RestartFires(a.session));
      RevertKeepsInv(u, a, h);
      SessionStepInv(u, a, PermissionAnswered(a.session, granted));
      SessionStepInv(u, a, Unmount(a.session));
    }
  }

  /** Every event of the phrase form keeps the invariant. */
  lemma FormEventsKeepInv(u: Unicode, a: App, text: string)
    requires Inv(u, a)
    ensures Inv(u, PhraseEdited(a, text))
    ensures Inv(u, PhraseSubmitted(u, a))
    ensures Inv(u, FeedbackExpires(a))
  {
    if a.session.mounted {
      SubmitKeepsInv(u, a);
    }
  }

  lemma HeardKeepsInv(u: Unicode, a: App, results: seq<seq<string>>, resultIndex: nat)
    requires Inv(u, a) && a.session.mounted
    ensures Inv(u, Heard(u, a, results, resultIndex))
  {
    var s := OnResult(a.session, u, Resolve(u, a.phrases.variants), results, resultIndex);
    assert s.controller == a.session.controller || s.controller == Trigger(a.session.controller);
  }

  lemma RevertKeepsInv(u: Unicode, a: App, h: nat)
    requires Inv(u, a) && a.session.mounted
    ensures Inv(u, RevertTimer(a, h))
  {
    var s := RevertTimerFires(a.session, h, a.phrases.effective);
    assert s.controller == RevertFires(a.session.controller, h, a.phrases.effective);
  }

  lemma SubmitKeepsInv(u: Unicode, a: App)
    requires Inv(u, a)
    ensures Inv(u, Submit(u, a))
  {
    var next := EffectivePhrase(a.phrases.pending);
    var feedback := Submit(u, a).phrases.feedback;
    var b := a.(phrases := a.phrases.(active := next, feedback := feedback));
    if next != a.phrases.active {
      CommitInv(u, b, next);
    }
  }

  /** After a submit, the active, effective and stored phrase are all the
      sanitised text of the field, or the default when that is blank. */
  lemma SubmitStoresEffective(u: Unicode, a: App)
    requires Inv(u, a)
    ensures var r := Submit(u, a);
      && r.phrases.active == EffectivePhrase(a.phrases.pending)
      && r.phrases.effective == EffectivePhrase(a.phrases.pending)
      && (r.storage.available ==> StoredPhrase(r.storage) == Some(EffectivePhrase(a.phrases.pending)))
  {
    SubmitKeepsInv(u, a);
    EffectivePhraseIdempotent(a.phrases.pending);
  }

  /** The matcher always has variants to look for. */
  lemma VariantsNeverEmpty(u: Unicode, a: App)
    requires Faithful(u) && Inv(u, a)
    ensures Resolve(u, a.phrases.variants) != []
  {
  }

  /** Reloading after the effective phrase was stored restores it. */
  lemma RestoreRoundTrip(u: Unicode, supported: bool, st: Storage, phrase: string)
    requires st.available
    ensures Mount(u, supported, Persist(st, EffectivePhrase(phrase))).phrases.effective
            == EffectivePhrase(phrase)
  {
    StoredAfterPersist(st, EffectivePhrase(phrase));
    MountEstablishes(u, supported, Persist(st, EffectivePhrase(phrase)));
    EffectivePhraseIdempotent(phrase);
  }

  /** While listening and idle, hearing the active phrase activates. */
  lemma HeardPhraseActivates(u: Unicode, a: App, results: seq<seq<string>>, resultIndex: nat,
                             combined: string)
    requires Inv(u, a)
    requires a.session.listening && !a.session.controller.active
    requires CombinedTranscript(results, resultIndex) == Some(combined)
    requires LowerSanitized(u, a.phrases.active) != []
    requires Includes(u.lower(combined), LowerSanitized(u, a.phrases.active))
    ensures Heard(u, a, results, resultIndex).session.controller.active
  {
    PhraseHeardActivates(u, a.phrases.active, combined);
  }
}

=== FILE: folding.dfy ===
/**
  Character-level folding used to normalise phrases and transcripts, and the
  substring test `String.prototype.includes`.

  Strings are sequences of Unicode scalar values. The Unicode library calls
  of the program (`toLowerCase`, NFD decomposition followed by removal of
  `\p{Diacritic}`, and the `\p{L}` property test) are not defined here: they
  are the fields of a `Unicode` record, and every statement below holds for
  every such record.
 */
module Folding {
  import opened Whitespace

  /** The Unicode library behaviour the program relies on. */
  datatype Unicode = Unicode(
    lower: string -> string,            // String.prototype.toLowerCase
    stripDiacritics: string -> string,  // normalize('NFD') then drop \p{Diacritic}
    isLetter: char -> bool              // the \p{L} property
  )

  predicate IsAsciiLower(c: char) {
    'a' <= c <= 'z'
  }

  /** A character outside the Basic Multilingual Plane, which UTF-16 stores as
      a surrogate pair of two code units. */
  predicate IsAstral(c: char) {
    c as int > 0xFFFF
  }

  /** What `/[^\p{L}\s]/gu` leaves of one character when replaced by a space. */
  function KeepLetter(u: Unicode, c: char): char {
    if u.isLetter(c) || IsWhitespace(c) then c else ' '
  }

  /** `replace(/[^\p{L}\s]/gu, ' ')`: with the `u` flag the class applies to
      whole code points, so each character that is neither a letter nor
      whitespace becomes exactly one space. */
  function LettersOnly(u: Unicode, s: string): (r: string)
    ensures |r| == |s|
    ensures forall i :: 0 <= i < |s| ==> u.isLetter(r[i]) || IsWhitespace(r[i])
    ensures forall i :: 0 <= i < |s| && (u.isLetter(s[i]) || IsWhitespace(s[i])) ==> r[i] == s[i]
    ensures forall i :: 0 <= i < |s| && !u.isLetter(s[i]) && !IsWhitespace(s[i]) ==> r[i] == ' '
  {
    if s == [] then [] else [KeepLetter(u, s[0])] + LettersOnly(u, s[1..])
  }

  /** The number of UTF-16 code units of `s`. */
  function Utf16Length(s: string): nat {
    if s == [] then 0 else (if IsAstral(s[0]) then 2 else 1) + Utf16Length(s[1..])
  }

  /** What `/[^a-z\s]/g` leaves of one character. Without the `u` flag the
      class applies to UTF-16 code units, so a character stored as a
      surrogate pair becomes two spaces. */
  function KeepAscii(c: char): string {
    if IsAsciiLower(c) || IsWhitespace(c) then [c]
    else if IsAstral(c) then "  "
    else " "
  }

  /** `replace(/[^a-z\s]/g, ' ')`. */
  function AsciiOnly(s: string): (r: string)
    ensures |r| == Utf16Length(s)
    ensures forall i :: 0 <= i < |r| ==> IsAsciiLower(r[i]) || IsWhitespace(r[i])
  {
    if s == [] then [] else KeepAscii(s[0]) + AsciiOnly(s[1..])
  }

  /** No character of `s` needs a surrogate pair. */
  predicate NoAstral(s: string) {
    forall i :: 0 <= i < |s| ==> !IsAstral(s[i])
  }

  /** On text without surrogate pairs the ASCII fold works in place: `a`-`z`
      and whitespace stay where they are, and every other character becomes
      one space. */
  lemma {:induction false} AsciiOnlyInPlace(s: string)
    requires NoAstral(s)
    ensures |AsciiOnly(s)| == |s|
    ensures forall i :: 0 <= i < |s| && (IsAsciiLower(s[i]) || IsWhitespace(s[i])) ==> AsciiOnly(s)[i] == s[i]
    ensures forall i :: 0 <= i < |s| && !IsAsciiLower(s[i]) && !IsWhitespace(s[i]) ==> AsciiOnly(s)[i] == ' '
  {
    if s != [] {
      assert NoAstral(s[1..]) by {
        assert forall i :: 0 <= i < |s[1..]| ==> s[1..][i] == s[i + 1];
      }
      AsciiOnlyInPlace(s[1..]);
      var r := AsciiOnly(s);
      assert r == KeepAscii(s[0]) + AsciiOnly(s[1..]);
      assert |KeepAscii(s[0])| == 1;
      assert forall i :: 0 < i < |s| ==> r[i] == AsciiOnly(s[1..])[i - 1] && s[i] == s[1..][i - 1];
    }
  }

  /** The ASCII fold works piece by piece, so a character stored as a
      surrogate pair becomes two spaces wherever it stands. */
  lemma {:induction false} AsciiOnlyAppend(a: string, b: string)
    ensures AsciiOnly(a + b) == AsciiOnly(a) + AsciiOnly(b)
    ensures forall c :: IsAstral(c) ==> AsciiOnly([c]) == "  "
  {
    if a == [] {
      assert a + b == b;
    } else {
      assert (a + b)[0] == a[0] && (a + b)[1..] == a[1..] + b;
      AsciiOnlyAppend(a[1..], b);
      assert AsciiOnly(a + b) == KeepAscii(a[0]) + (AsciiOnly(a[1..]) + AsciiOnly(b));
    }
  }

  /** A string of lower-case ASCII letters and whitespace is left alone, and
      no other string is. */
  lemma {:induction false} AsciiOnlyFixedPoints(s: string)
    ensures AsciiOnly(s) == s <==> forall i :: 0 <= i < |s| ==> IsAsciiLower(s[i]) || IsWhitespace(s[i])
  {
    if s != [] {
      AsciiOnlyFixedPoints(s[1..]);
      var k := KeepAscii(s[0]);
      if IsAsciiLower(s[0]) || IsWhitespace(s[0]) {
        assert AsciiOnly(s) == [s[0]] + AsciiOnly(s[1..]);
        assert AsciiOnly(s) == s <==> AsciiOnly(s[1..]) == s[1..] by {
          assert s == [s[0]] + s[1..];
        }
        assert (forall i :: 0 <= i < |s| ==> IsAsciiLower(s[i]) || IsWhitespace(s[i]))
          <==> (forall i :: 0 <= i < |s[1..]| ==> IsAsciiLower(s[1..][i]) || IsWhitespace(s[1..][i]))
        by {
          assert forall i :: 0 < i < |s| ==> s[i] == s[1..][i - 1];
        }
      } else {
        assert AsciiOnly(s)[0] == ' ';
      }
    }
  }

  /** Only `a`-`z` and single spaces, with no space at either end. */
  predicate IsAsciiPhrase(r: string) {
    && (forall i :: 0 <= i < |r| ==> IsAsciiLower(r[i]) || r[i] == ' ')
    && (r == [] || (r[0] != ' ' && r[|r| - 1] != ' '))
    && (forall i :: 0 <= i < |r| - 1 && r[i] == ' ' ==> r[i + 1] != ' ')
  }

  /** The sanitised ASCII form of any string holds only `a`-`z` and single
      spaces, and neither starts nor ends with a space. */
  lemma AsciiCollapsedShape(s: string)
    ensures IsAsciiPhrase(Sanitize(AsciiOnly(s)))
  {
    var a := AsciiOnly(s);
    var r := Sanitize(a);
    SanitizeShape(a);
    forall i | 0 <= i < |r|
      ensures IsAsciiLower(r[i]) || r[i] == ' '
    {
      if !IsWhitespace(r[i]) {
        assert r[i] in r;
        var j :| 0 <= j < |a| && a[j] == r[i];
      }
    }
  }

  // ----- String.prototype.includes -----

  /** `needle` occurs in `hay` starting at index `i`. */
  predicate OccursAt(hay: string, needle: string, i: int) {
    0 <= i && i + |needle| <= |hay| && hay[i..i + |needle|] == needle
  }

  /** `hay.includes(needle)`: a left-to-right scan for `needle`. */
  function Includes(hay: string, needle: string): bool {
    needle <= hay || (hay != [] && Includes(hay[1..], needle))
  }

  /** `Includes` holds exactly when `needle` occurs somewhere in `hay`. */
  lemma IncludesSpec(hay: string, needle: string)
    ensures Includes(hay, needle) <==> exists i :: OccursAt(hay, needle, i)
  {
    if Includes(hay, needle) {
      var i := IncludesFound(hay, needle);
    }
    if i :| OccursAt(hay, needle, i) {
      IncludesComplete(hay, needle, i);
    }
  }

  /** When the scan succeeds, it has found an occurrence. */
  lemma {:induction false} IncludesFound(hay: string, needle: string) returns (i: nat)
    requires Includes(hay, needle)
    ensures OccursAt(hay, needle, i)
  {
    if needle <= hay {
      i := 0;
      assert hay[0..|needle|] == needle;
    } else {
      var j := IncludesFound(hay[1..], needle);
      OccursShift(hay, needle, j);
      i := j + 1;
    }
  }

  /** The scan finds every occurrence. */
  lemma {:induction false} IncludesComplete(hay: string, needle: string, i: nat)
    requires OccursAt(hay, needle, i)
    ensures Includes(hay, needle)
    decreases i
  {
    if i == 0 {
      assert needle == hay[..|needle|];
    } else {
      OccursShift(hay, needle, i - 1);
      IncludesComplete(hay[1..], needle, i - 1);
    }
  }

  /** An occurrence in the tail is an occurrence one place later in the whole. */
  lemma OccursShift(hay: string, needle: string, j: nat)
    requires hay != []
    ensures OccursAt(hay[1..], needle, j) <==> OccursAt(hay, needle, j + 1)
  {
    if j + |needle| <= |hay[1..]| {
      assert hay[1..][j..j + |needle|] == hay[j + 1..j + 1 + |needle|];
    }
  }

  /** Occurrences compose: an occurrence of `w` in `t`, where `t` occurs in
      `s`, is an occurrence of `w` in `s`. */
  lemma OccursCompose(s: string, t: string, w: string, p: nat, q: nat)
    requires OccursAt(s, t, p) && OccursAt(t, w, q)
    ensures OccursAt(s, w, p + q)
  {
    forall k | 0 <= k < |w|
      ensures s[p + q + k] == w[k]
    {
      assert s[p + q + k] == s[p..p + |t|][q + k] == t[q + k] == t[q..q + |w|][k];
    }
    assert s[p + q..p + q + |w|] == w;
  }

  /** Each part of a join occurs in the joined string. */
  lemma {:induction false} JoinHasPart(parts: seq<string>, sep: string, k: nat) returns (p: nat)
    requires k < |parts|
    ensures OccursAt(Join(parts, sep), parts[k], p)
  {
    var j := Join(parts, sep);
    if |parts| == 1 {
      p := 0;
      assert j[0..|parts[0]|] == j;
    } else if k == 0 {
      p := 0;
      assert j == parts[0] + (sep + Join(parts[1..], sep));
      assert j[0..|parts[0]|] == parts[0];
    } else {
      var q := JoinHasPart(parts[1..], sep, k - 1);
      var rest := Join(parts[1..], sep);
      var head := parts[0] + sep;
      assert j == head + rest;
      p := |head| + q;
      assert j[p..p + |parts[k]|] == rest[q..q + |parts[k]|];
    }
  }

  /** Trimming the haystack keeps every occurrence of a non-empty needle that
      neither starts nor ends with whitespace. */
  lemma TrimKeepsOccurrence(s: string, w: string, q: nat) returns (j: nat)
    requires OccursAt(s, w, q) && w != [] && Trimmed(w)
    ensures OccursAt(Trim(s), w, j)
  {
    var a, b := TrimBounds(s);
    assert s[q] == w[0] && s[q + |w| - 1] == w[|w| - 1];
    assert a <= q && q + |w| <= b;
    j := q - a;
    assert Trim(s)[j..j + |w|] == s[q..q + |w|];
  }
}

=== FILE: matcher.dfy ===
/**
  The transcript matcher of the recognition `onresult` handler: the transcript
  assembled from the results, its six candidate forms, and the decision to
  activate.
 */
module Matcher {
  import opened Wrappers
  import opened Whitespace
  import opened Folding
  import opened Variants

  /** The first alternative of every result, or `None` when some result has
      no alternative (reading `[0].transcript` of it throws). */
  function FirstAlternatives(results: seq<seq<string>>): (r: Option<seq<string>>)
    ensures r.Some? <==> forall i :: 0 <= i < |results| ==> results[i] != []
    ensures r.Some? ==> |r.value| == |results|
    ensures r.Some? ==> forall i :: 0 <= i < |results| ==> r.value[i] == results[i][0]
  {
    if results == [] then Some([])
    else if results[0] == [] then None
    else
      match FirstAlternatives(results[1..])
      case None => None
      case Some(rest) => Some([results[0][0]] + rest)
  }

  /** The results from `resultIndex` on; none when the index is past the end,
      as the counting loop then never runs. */
  function NewResults(results: seq<seq<string>>, resultIndex: nat): seq<seq<string>> {
    if resultIndex < |results| then results[resultIndex..] else []
  }

  /** `transcripts.join(' ').trim()` over the new results, or `None` when the
      handler throws before getting there. */
  function CombinedTranscript(results: seq<seq<string>>, resultIndex: nat): (r: Option<string>)
    ensures r.Some? <==> forall i :: resultIndex <= i < |results| ==> results[i] != []
    ensures r.Some? ==> Trimmed(r.value)
  {
    var rs := NewResults(results, resultIndex);
    assert forall i :: resultIndex <= i < |results| ==> results[i] == rs[i - resultIndex];
    match FirstAlternatives(rs)
    case None => None
    case Some(ts) =>
      TrimSpec(Join(ts, " "));
      Some(Trim(Join(ts, " ")))
  }

  /** Every new transcript, trimmed, occurs in the combined transcript. */
  lemma CombinedHasEachTranscript(results: seq<seq<string>>, resultIndex: nat, i: nat)
    requires CombinedTranscript(results, resultIndex).Some?
    requires resultIndex <= i < |results|
    ensures Includes(CombinedTranscript(results, resultIndex).value, Trim(results[i][0]))
  {
    var combined := CombinedTranscript(results, resultIndex).value;
    var rs := NewResults(results, resultIndex);
    var k := i - resultIndex;
    assert rs[k] == results[i];
    var ts := FirstAlternatives(rs).value;
    var t := ts[k];
    var w := Trim(t);
    if w == [] {
      assert w <= combined;
    } else {
      var p := JoinHasPart(ts, " ", k);
      var a, b := TrimBounds(t);
      assert OccursAt(t, w, a);
      OccursCompose(Join(ts, " "), t, w, p, a);
      TrimSpec(t);
      var q := TrimKeepsOccurrence(Join(ts, " "), w, p + a);
      IncludesComplete(combined, w, q);
    }
  }

  /** The words heard from `resultIndex` on: the words of each new result's
      first transcript, result by result. */
  function HeardWords(results: seq<seq<string>>, resultIndex: nat): seq<string>
    requires forall i :: resultIndex <= i < |results| ==> results[i] != []
    decreases |results| - resultIndex
  {
    if resultIndex >= |results| then []
    else Words(results[resultIndex][0]) + HeardWords(results, resultIndex + 1)
  }

  /** The combined transcript holds the heard words in order, and sanitised
      it is exactly those words joined by single spaces: a phrase spoken
      across two results reads as one. */
  lemma CombinedWords(results: seq<seq<string>>, resultIndex: nat)
    requires CombinedTranscript(results, resultIndex).Some?
    ensures Words(CombinedTranscript(results, resultIndex).value) == HeardWords(results, resultIndex)
    ensures Sanitize(CombinedTranscript(results, resultIndex).value)
            == Join(HeardWords(results, resultIndex), " ")
  {
    var combined := CombinedTranscript(results, resultIndex).value;
    var ts := FirstAlternatives(NewResults(results, resultIndex)).value;
    TrimWords(Join(ts, " "));
    JoinWords(ts);
    AlternativesWords(results, resultIndex);
    SanitizeJoinsWords(combined);
  }

  /** The words of the first alternatives are the heard words. */
  lemma {:induction false} AlternativesWords(results: seq<seq<string>>, resultIndex: nat)
    requires forall i :: resultIndex <= i < |results| ==> results[i] != []
    ensures FirstAlternatives(NewResults(results, resultIndex)).Some?
    ensures AllWords(FirstAlternatives(NewResults(results, resultIndex)).value)
            == HeardWords(results, resultIndex)
    decreases |results| - resultIndex
  {
    if resultIndex < |results| {
      var rs := results[resultIndex..];
      assert rs[1..] == NewResults(results, resultIndex + 1);
      AlternativesWords(results, resultIndex + 1);
    }
  }

  /** Two results "merhaba" and "buğra" combine to the phrase itself. */
  lemma SplitPhraseCombines()
    ensures CombinedTranscript([["merhaba"], ["buğra"]], 0) == Some("merhaba buğra")
  {
    var rs: seq<seq<string>> := [["merhaba"], ["buğra"]];
    assert NewResults(rs, 0) == rs;
    assert rs[1..] == [["buğra"]];
    var last: seq<seq<string>> := [["buğra"]];
    assert last[1..] == [] && last[0] == ["buğra"];
    assert FirstAlternatives(last[1..]) == Some([]);
    assert [last[0][0]] + [] == ["buğra"];
    assert FirstAlternatives(last) == Some(["buğra"]);
    assert rs[0][0] == "merhaba" && ["merhaba"] + ["buğra"] == ["merhaba", "buğra"];
    assert FirstAlternatives(rs) == Some(["merhaba", "buğra"]);
    assert ["merhaba", "buğra"][1..] == ["buğra"];
    var j := Join(["merhaba", "buğra"], " ");
    assert j == "merhaba buğra";
    TrimFixes(j);
  }

  /** What the "last heard" line shows for a combined transcript. */
  function LastHeard(combined: string): (r: string)
    ensures r != []
    ensures combined != [] ==> r == combined
  {
    if |combined| > 0 then combined else "..."
  }

  /** The six candidate forms of a combined transcript, without the empty ones. */
  function Candidates(u: Unicode, combined: string): (r: seq<string>)
    ensures forall c :: c in r ==> c != []
    ensures var lower := u.lower(combined);
      var diacriticFree := u.stripDiacritics(lower);
      var lowerSansPunct := LettersOnly(u, lower);
      var asciiSansPunct := AsciiOnly(diacriticFree);
      forall c :: c in r <==> c != [] && (c == lower || c == lowerSansPunct || c == Sanitize(lowerSansPunct)
                                        || c == diacriticFree || c == asciiSansPunct || c == Sanitize(asciiSansPunct))
  {
    var lower := u.lower(combined);
    var diacriticFree := u.stripDiacritics(lower);
    var lowerSansPunct := LettersOnly(u, lower);
    var asciiSansPunct := AsciiOnly(diacriticFree);
    RemoveEmpty([ lower,
                  lowerSansPunct,
                  Sanitize(lowerSansPunct),
                  diacriticFree,
                  asciiSansPunct,
                  Sanitize(asciiSansPunct) ])
  }

  /** `variants.some(v => candidates.some(c => c.includes(v)))`. */
  predicate Matches(variants: seq<string>, candidates: seq<string>) {
    exists v, c :: v in variants && c in candidates && Includes(c, v)
  }

  /** The activation decision, scanning variants and candidates in order and
      stopping at the first hit, as `some` does. */
  method ShouldActivate(variants: seq<string>, candidates: seq<string>) returns (b: bool)
    ensures b <==> Matches(variants, candidates)
  {
    b := false;
    var i := 0;
    while i < |variants| && !b
      invariant 0 <= i <= |variants|
      invariant b ==> Matches(variants, candidates)
      invariant !b ==> forall k, c :: 0 <= k < i && c in candidates ==> !Includes(c, variants[k])
    {
      var j := 0;
      while j < |candidates| && !b
        invariant 0 <= j <= |candidates|
        invariant b ==> Matches(variants, candidates)
        invariant !b ==> forall m :: 0 <= m < j ==> !Includes(candidates[m], variants[i])
      {
        b := Includes(candidates[j], variants[i]);
        j := j + 1;
      }
      i := i + 1;
    }
  }

  /** Activation fires exactly when some variant occurs, as a substring, in
      some non-empty candidate. */
  lemma MatchesSpec(u: Unicode, variants: seq<string>, combined: string)
    ensures Matches(variants, Candidates(u, combined))
      <==> exists v, c, i :: v in variants && c in Candidates(u, combined) && c != []
             && OccursAt(c, v, i)
  {
    var cs := Candidates(u, combined);
    if Matches(variants, cs) {
      var v, c :| v in variants && c in cs && Includes(c, v);
      IncludesSpec(c, v);
    }
    if exists v, c, i :: v in variants && c in cs && c != [] && OccursAt(c, v, i) {
      var v, c, i :| v in variants && c in cs && c != [] && OccursAt(c, v, i);
      IncludesSpec(c, v);
    }
  }

  /** When the lower-cased transcript contains the lower-cased, sanitised
      phrase, activation fires. */
  lemma PhraseHeardActivates(u: Unicode, phrase: string, combined: string)
    requires LowerSanitized(u, phrase) != []
    requires Includes(u.lower(combined), LowerSanitized(u, phrase))
    ensures Matches(EffectiveVariants(u, phrase), Candidates(u, combined))
  {
    var p := LowerSanitized(u, phrase);
    var hay := u.lower(combined);
    IncludesSpec(hay, p);
    var i :| OccursAt(hay, p, i);
    assert hay != [];
    assert p in EffectiveVariants(u, phrase);
    assert hay in Candidates(u, combined);
  }

  /** When the sanitised ASCII form of the transcript contains the phrase's
      non-empty ASCII variant, activation fires: "merhaba bugra" heard for
      "merhaba buğra". */
  lemma AsciiHeardActivates(u: Unicode, phrase: string, combined: string)
    requires LowerSanitized(u, phrase) != []
    requires Sanitize(AsciiOnly(u.stripDiacritics(LowerSanitized(u, phrase)))) != []
    requires Includes(Sanitize(AsciiOnly(u.stripDiacritics(u.lower(combined)))),
                      Sanitize(AsciiOnly(u.stripDiacritics(LowerSanitized(u, phrase)))))
    ensures Matches(EffectiveVariants(u, phrase), Candidates(u, combined))
  {
    var v := Sanitize(AsciiOnly(u.stripDiacritics(LowerSanitized(u, phrase))));
    var c := Sanitize(AsciiOnly(u.stripDiacritics(u.lower(combined))));
    AsciiVariant(u, phrase);
    IncludesSpec(c, v);
    assert c != [];
    assert v in EffectiveVariants(u, phrase);
    assert c in Candidates(u, combined);
  }

  /** When the sanitised letters-only form of the transcript contains the
      phrase's non-empty letters-only variant, activation fires: a phrase
      heard with punctuation around or inside it. */
  lemma LettersHeardActivates(u: Unicode, phrase: string, combined: string)
    requires LowerSanitized(u, phrase) != []
    requires Sanitize(LettersOnly(u, LowerSanitized(u, phrase))) != []
    requires Includes(Sanitize(LettersOnly(u, u.lower(combined))),
                      Sanitize(LettersOnly(u, LowerSanitized(u, phrase))))
    ensures Matches(EffectiveVariants(u, phrase), Candidates(u, combined))
  {
    var v := Sanitize(LettersOnly(u, LowerSanitized(u, phrase)));
    var c := Sanitize(LettersOnly(u, u.lower(combined)));
    LettersVariant(u, phrase);
    IncludesSpec(c, v);
    assert c != [];
    assert v in EffectiveVariants(u, phrase);
    assert c in Candidates(u, combined);
  }
}

=== FILE: recognition.dfy ===
/**
  The speech-recognition session: the microphone permission outcome, the
  `onresult`, `onerror` and `onend` handlers, the restart after an end, and
  the clean-up on unmount. The recognition engine itself is not modelled; its
  callbacks are the inputs of the functions below.
 */
module Recognition {
  import opened Wrappers
  import opened Folding
  import opened Matcher
  import opened Activation

  datatype Permission = Pending | Granted | Denied

  /** How the `onerror` handler treats an error code. */
  datatype ErrorKind =
    | PermissionBlocked  // the microphone was refused: permission becomes denied
    | NoSpeech           // benign: nothing changes
    | Transient          // any other code: a soft error message

  const UnsupportedMessage: string := "Tarayıcınız Web Speech API'yi desteklemiyor."
  const MicrophoneMessage: string := "Sesli komutlar için mikrofon erişimi gerekiyor."
  const BlockedMessage: string :=
    "Mikrofon izni engellenmiş. Lütfen tarayıcı ayarlarından izin verip sayfayı yenileyin."
  const TransientMessage: string := "Ses tanıma sırasında bir hata oluştu. Yeniden deniyorum…"

  /** The delay before recognition is started again after it ends. */
  const RestartDelayMs: nat := 300

  /** The classification the `onerror` handler applies to `event.error`. */
  function Classify(code: string): (k: ErrorKind)
    ensures k == PermissionBlocked <==> code == "not-allowed" || code == "service-not-allowed"
    ensures k == NoSpeech <==> code == "no-speech"
  {
    if code == "not-allowed" || code == "service-not-allowed" then PermissionBlocked
    else if code == "no-speech" then NoSpeech
    else Transient
  }

  datatype Session = Session(
    permission: Permission,
    error: Option<string>,
    lastHeard: string,
    mounted: bool,             // the effect's `mounted` flag
    awaitingPermission: bool,  // the microphone request has not answered yet
    listening: bool,           // recognition is set up and its handlers attached
    restartPending: bool,      // the 300 ms restart timer is scheduled
    controller: Controller
  )

  /** Bookkeeping every reachable session keeps. */
  predicate SessionOk(s: Session) {
    && Valid(s.controller)
    && (s.listening ==> s.mounted && !s.awaitingPermission)
    && (s.restartPending ==> s.mounted)
    && (s.mounted ==> Live(s.controller))
    && (!s.mounted ==> s.controller.pending == {})
  }

  /** The session right after mounting: without a recognition constructor the
      error is shown and nothing else happens; otherwise the microphone is
      requested. */
  function StartSession(supported: bool, controller: Controller): (s: Session)
    ensures Live(controller) ==> SessionOk(s)
    ensures s.mounted && !s.listening
    ensures s.awaitingPermission <==> supported
    ensures !supported ==> s.error == Some(UnsupportedMessage)
    ensures supported ==> s.error == None
    ensures s.permission == Pending && s.lastHeard == "..." && !s.restartPending
    ensures s.controller == controller
  {
    Session(Pending, if supported then None else Some(UnsupportedMessage), "...",
            true, supported, false, false, controller)
  }

  /** The microphone request answers. Once granted (and still mounted) the
      recognition is set up; a refusal shows why commands are unavailable. */
  function PermissionAnswered(s: Session, granted: bool): (r: Session)
    ensures SessionOk(s) ==> SessionOk(r)
    ensures !s.awaitingPermission || !s.mounted ==> r.(awaitingPermission := s.awaitingPermission) == s
    ensures s.awaitingPermission && s.mounted ==>
      && !r.awaitingPermission
      && (SessionOk(s) ==> (r.listening <==> granted))
      && r.permission == (if granted then Granted else Denied)
      && r.error == (if granted then s.error else Some(MicrophoneMessage))
      && r.listening == (granted || s.listening)
      && r.(awaitingPermission := s.awaitingPermission, permission := s.permission,
            error := s.error, listening := s.listening) == s
  {
    if !s.awaitingPermission then s
    else if !s.mounted then s.(awaitingPermission := false)
    else if granted then s.(awaitingPermission := false, permission := Granted, listening := true)
    else s.(awaitingPermission := false, permission := Denied, error := Some(MicrophoneMessage))
  }

  /** The `onerror` handler. */
  function OnError(s: Session, code: string): (r: Session)
    ensures SessionOk(s) ==> SessionOk(r)
    ensures r.(permission := s.permission, error := s.error) == s
    ensures !s.listening ==> r == s
    ensures s.listening ==> match Classify(code)
      case PermissionBlocked => r.permission == Denied && r.error == Some(BlockedMessage)
      case NoSpeech => r == s
      case Transient => r.permission == s.permission && r.error == Some(TransientMessage)
  {
    if !s.listening then s
    else match Classify(code)
      case PermissionBlocked => s.(permission := Denied, error := Some(BlockedMessage))
      case NoSpeech => s
      case Transient => s.(error := Some(TransientMessage))
  }

  /** The `onend` handler: while mounted, schedule a restart. */
  function OnEnd(s: Session): (r: Session)
    ensures SessionOk(s) ==> SessionOk(r)
    ensures r.(restartPending := s.restartPending) == s
    ensures r.restartPending <==> s.restartPending || (s.listening && s.mounted)
  {
    if s.listening && s.mounted then s.(restartPending := true) else s
  }

  /** The restart timer fires and recognition is started again; a failure to
      start is only logged. */
  function RestartFires(s: Session): (r: Session)
    ensures SessionOk(s) ==> SessionOk(r)
    ensures !r.restartPending
    ensures r.(restartPending := s.restartPending) == s
  {
    s.(restartPending := false)
  }

  /** The `onresult` handler, matching against `variants`: show what was
      heard and activate when some variant occurs in some candidate. */
  function OnResult(s: Session, u: Unicode, variants: seq<string>,
                    results: seq<seq<string>>, resultIndex: nat): (r: Session)
    ensures SessionOk(s) ==> SessionOk(r)
    ensures !s.listening || CombinedTranscript(results, resultIndex).None? ==> r == s
    ensures s.listening && CombinedTranscript(results, resultIndex).Some? ==>
      var combined := CombinedTranscript(results, resultIndex).value;
      && r.lastHeard == LastHeard(combined)
      && r.controller == (if Matches(variants, Candidates(u, combined))
                          then Trigger(s.controller) else s.controller)
      && r.(lastHeard := s.lastHeard, controller := s.controller) == s
  {
    if !s.listening then s
    else match CombinedTranscript(results, resultIndex)
      case None => s
      case Some(combined) =>
        var heard := s.(lastHeard := LastHeard(combined));
        if Matches(variants, Candidates(u, combined))
        then heard.(controller := Trigger(s.controller))
        else heard
  }

  /** Timer `h` fires; when it is the pending revert the assistant goes idle
      and shows the idle headline for `phrase`. */
  function RevertTimerFires(s: Session, h: nat, phrase: string): (r: Session)
    ensures SessionOk(s) ==> SessionOk(r)
    ensures r.(controller := s.controller) == s
    ensures r.controller == RevertFires(s.controller, h, phrase)
  {
    s.(controller := RevertFires(s.controller, h, phrase))
  }

  /** The clean-up on unmount: handlers detached, restart and revert timers
      cleared. */
  function Unmount(s: Session): (r: Session)
    ensures SessionOk(s) ==> SessionOk(r)
    ensures !r.mounted && !r.listening && !r.restartPending
    ensures Valid(s.controller) ==> r.controller.pending == {}
  {
    s.(mounted := false, listening := false, restartPending := false,
       controller := CancelRevert(s.controller))
  }

  /** From idle, a result whose combined transcript holds a matching candidate
      activates the assistant, and one that holds none leaves it idle. */
  lemma ResultActivatesIff(s: Session, u: Unicode, variants: seq<string>,
                           results: seq<seq<string>>, resultIndex: nat, combined: string)
    requires Valid(s.controller) && s.listening && !s.controller.active
    requires CombinedTranscript(results, resultIndex) == Some(combined)
    ensures OnResult(s, u, variants, results, resultIndex).controller.active
            <==> Matches(variants, Candidates(u, combined))
  {
  }
}

=== FILE: variants.dfy ===
/**
  The activation phrase and its normalised forms (`buildPhraseVariants`), the
  fallback to the default phrase, and the idle headline that names the phrase.
 */
module Variants {
  import opened Whitespace
  import opened Folding

  /** `DEFAULT_ACTIVATION_PHRASE`. */
  const DefaultPhrase: string := "merhaba buğra"

  /** The only thing assumed of the Unicode library: the default phrase is
      already in lower case. */
  predicate Faithful(u: Unicode) {
    u.lower(DefaultPhrase) == DefaultPhrase
  }

  /** `.filter(Boolean)` on strings: drop the empty ones, keep the order. */
  function RemoveEmpty(xs: seq<string>): (r: seq<string>)
    ensures forall x :: x in r <==> x in xs && x != []
    ensures xs != [] && xs[0] != [] ==> r != [] && r[0] == xs[0]
  {
    if xs == [] then []
    else (if xs[0] == [] then [] else [xs[0]]) + RemoveEmpty(xs[1..])
  }

  /** No element occurs twice. */
  predicate Distinct<T(==)>(xs: seq<T>) {
    forall i, j :: 0 <= i < j < |xs| ==> xs[i] != xs[j]
  }

  /** Adding the elements to a `Set` one by one and spreading it back into an
      array: the first occurrence of each element, in order of appearance. */
  function Dedup(xs: seq<string>): (r: seq<string>)
    ensures Distinct(r)
    ensures forall x :: x in r <==> x in xs
    ensures xs != [] ==> r != [] && r[0] == xs[0]
  {
    if xs == [] then []
    else
      var d := Dedup(xs[..|xs| - 1]);
      var x := xs[|xs| - 1];
      if x in d then d else d + [x]
  }

  /** A sequence without repeats is the sequence itself after `Dedup`. */
  lemma {:induction false} DedupDistinct(xs: seq<string>)
    requires Distinct(xs)
    ensures Dedup(xs) == xs
  {
    if xs != [] {
      var p := xs[..|xs| - 1];
      assert Distinct(p);
      DedupDistinct(p);
      assert xs[|xs| - 1] !in p;
      assert p + [xs[|xs| - 1]] == xs;
    }
  }

  /** The six forms of a lower-cased, sanitised phrase. */
  function Forms(u: Unicode, trimmed: string): seq<string> {
    var withoutDiacritics := u.stripDiacritics(trimmed);
    FormsOf(trimmed, withoutDiacritics, LettersOnly(u, trimmed), AsciiOnly(withoutDiacritics))
  }

  /** The forms built from the phrase with and without diacritics, its
      letters-only and its ASCII-only rewriting: the collapsed forms are the
      sanitised rewritings, and every form is sanitised once more. */
  function FormsOf(withDiacritics: string, withoutDiacritics: string,
                   noPunct: string, asciiOnly: string): seq<string> {
    var noPunctCollapsed := Sanitize(noPunct);
    var asciiCollapsed := Sanitize(asciiOnly);
    [ Sanitize(withDiacritics),
      Sanitize(withoutDiacritics),
      Sanitize(noPunct),
      Sanitize(noPunctCollapsed),
      Sanitize(asciiOnly),
      Sanitize(asciiCollapsed) ]
  }

  /** Every form is sanitised. */
  lemma FormsOfSanitized(a: string, b: string, c: string, d: string)
    ensures forall v :: v in FormsOf(a, b, c, d) ==> IsSanitized(v)
  {
    SanitizeShape(a);
    SanitizeShape(b);
    SanitizeShape(c);
    SanitizeShape(Sanitize(c));
    SanitizeShape(d);
    SanitizeShape(Sanitize(d));
  }

  /** The lower-cased, sanitised phrase that heads the variants. */
  function LowerSanitized(u: Unicode, phrase: string): string {
    Sanitize(u.lower(phrase))
  }

  /** `buildPhraseVariants`. */
  function BuildPhraseVariants(u: Unicode, phrase: string): (r: seq<string>)
    ensures r == [] <==> LowerSanitized(u, phrase) == []
    ensures r != [] ==> r[0] == LowerSanitized(u, phrase)
    ensures forall v :: v in r ==> v != [] && IsSanitized(v)
    ensures Distinct(r)
  {
    var trimmed := LowerSanitized(u, phrase);
    if trimmed == [] then []
    else
      FormsSanitized(u, u.lower(phrase));
      Dedup(RemoveEmpty(Forms(u, trimmed)))
  }

  /** The forms of a sanitised string are sanitised, and the first is the
      string itself. */
  lemma FormsSanitized(u: Unicode, lower: string)
    ensures var f := Forms(u, Sanitize(lower));
      && f[0] == Sanitize(lower)
      && forall v :: v in f ==> IsSanitized(v)
  {
    var t := Sanitize(lower);
    var wd := u.stripDiacritics(t);
    SanitizeIdempotent(lower);
    FormsOfSanitized(t, wd, LettersOnly(u, t), AsciiOnly(wd));
  }

  /** Which form is the ASCII one and which the letters-only one. */
  lemma FormsAt(u: Unicode, t: string)
    ensures Forms(u, t)[2] == Sanitize(LettersOnly(u, t))
    ensures Forms(u, t)[4] == Sanitize(AsciiOnly(u.stripDiacritics(t)))
  {
    var wd := u.stripDiacritics(t);
    FormsOfAt(t, wd, LettersOnly(u, t), AsciiOnly(wd));
  }

  lemma FormsOfAt(a: string, b: string, c: string, d: string)
    ensures FormsOf(a, b, c, d)[2] == Sanitize(c)
    ensures FormsOf(a, b, c, d)[4] == Sanitize(d)
  {
  }

  /** Every variant is a fixed point of `sanitizeWhitespace`. */
  lemma VariantsAreSanitized(u: Unicode, phrase: string, v: string)
    requires v in BuildPhraseVariants(u, phrase)
    ensures v != [] && Sanitize(v) == v
  {
    SanitizeFixedPoints(v);
  }

  /** The variants are exactly the distinct non-empty forms. */
  lemma VariantsAreForms(u: Unicode, phrase: string, v: string)
    requires LowerSanitized(u, phrase) != []
    ensures v in BuildPhraseVariants(u, phrase) <==> v in Forms(u, LowerSanitized(u, phrase)) && v != []
  {
  }

  /** The ASCII variant, when not empty, is one of the variants and holds only
      `a`-`z` and single spaces with none at either end. */
  lemma AsciiVariant(u: Unicode, phrase: string)
    requires LowerSanitized(u, phrase) != []
    ensures var a := Sanitize(AsciiOnly(u.stripDiacritics(LowerSanitized(u, phrase))));
      && (a != [] ==> a in BuildPhraseVariants(u, phrase))
      && IsAsciiPhrase(a)
  {
    var t := LowerSanitized(u, phrase);
    var a := Sanitize(AsciiOnly(u.stripDiacritics(t)));
    AsciiCollapsedShape(u.stripDiacritics(t));
    assert a in Forms(u, t) by {
      FormsAt(u, t);
    }
    VariantsAreForms(u, phrase, a);
  }

  /** The letters-only variant, when not empty, is one of the variants and
      holds only letters and single spaces. */
  lemma LettersVariant(u: Unicode, phrase: string)
    requires LowerSanitized(u, phrase) != []
    ensures var l := Sanitize(LettersOnly(u, LowerSanitized(u, phrase)));
      && (l != [] ==> l in BuildPhraseVariants(u, phrase))
      && (forall i :: 0 <= i < |l| ==> u.isLetter(l[i]) || l[i] == ' ')
  {
    var t := LowerSanitized(u, phrase);
    var n := LettersOnly(u, t);
    var l := Sanitize(n);
    SanitizeShape(n);
    assert l in Forms(u, t) by {
      FormsAt(u, t);
    }
    VariantsAreForms(u, phrase, l);
    forall i | 0 <= i < |l|
      ensures u.isLetter(l[i]) || l[i] == ' '
    {
      if !IsWhitespace(l[i]) {
        assert l[i] in l;
        var j :| 0 <= j < |n| && n[j] == l[i];
      }
    }
  }

  /** The phrase that is stored, shown and used for matching: the sanitised
      phrase, or the default when that is empty. */
  function EffectivePhrase(phrase: string): (r: string)
    ensures r != [] && IsSanitized(r)
    ensures Sanitize(phrase) != [] ==> r == Sanitize(phrase)
  {
    DefaultSanitized();
    SanitizeShape(phrase);
    var s := Sanitize(phrase);
    if s == [] then DefaultPhrase else s
  }

  /** The default phrase is non-empty and already sanitised. */
  lemma DefaultSanitized()
    ensures DefaultPhrase != [] && IsSanitized(DefaultPhrase)
  {
    assert forall i :: 0 <= i < |DefaultPhrase| && IsWhitespace(DefaultPhrase[i]) ==> i == 7;
  }

  /** The effective phrase is the default exactly for a blank phrase, and the
      sanitised phrase otherwise; a sanitised non-empty phrase is its own
      effective phrase. */
  lemma EffectivePhraseFallback(phrase: string)
    ensures EffectivePhrase(phrase) == (if AllWhitespace(phrase) then DefaultPhrase else Sanitize(phrase))
    ensures IsSanitized(phrase) && phrase != [] ==> EffectivePhrase(phrase) == phrase
  {
    SanitizeEmpty(phrase);
    SanitizeFixedPoints(phrase);
  }

  /** The effective phrase is its own effective phrase, so storing it and
      reading it back changes nothing. */
  lemma EffectivePhraseIdempotent(phrase: string)
    ensures EffectivePhrase(EffectivePhrase(phrase)) == EffectivePhrase(phrase)
  {
    var e := EffectivePhrase(phrase);
    SanitizeFixedPoints(e);
  }

  /** The variants the matcher uses: those of the phrase, or those of the
      default phrase when the phrase has none. They are never empty when the
      Unicode library keeps the default phrase as it is. */
  function EffectiveVariants(u: Unicode, phrase: string): (r: seq<string>)
    ensures Faithful(u) ==> r != []
    ensures BuildPhraseVariants(u, phrase) != [] ==> r == BuildPhraseVariants(u, phrase)
    ensures BuildPhraseVariants(u, phrase) == [] ==> r == BuildPhraseVariants(u, DefaultPhrase)
    ensures forall v :: v in r ==> v != [] && IsSanitized(v)
  {
    var v := BuildPhraseVariants(u, phrase);
    if v != [] then v
    else
      DefaultSanitized();
      SanitizeFixedPoints(DefaultPhrase);
      BuildPhraseVariants(u, DefaultPhrase)
  }

  /** A blank phrase (one that stays blank when lower-cased) is matched with
      the variants of its effective phrase, the default: the same variants the
      default phrase itself gives. */
  lemma BlankPhraseUsesDefault(u: Unicode, phrase: string)
    requires AllWhitespace(phrase) && AllWhitespace(u.lower(phrase))
    ensures EffectivePhrase(phrase) == DefaultPhrase
    ensures EffectiveVariants(u, phrase) == EffectiveVariants(u, EffectivePhrase(phrase))
    ensures EffectiveVariants(u, phrase) == BuildPhraseVariants(u, DefaultPhrase)
  {
    SanitizeEmpty(phrase);
    SanitizeEmpty(u.lower(phrase));
  }

  // ----- formatIdleHeadline -----

  const HeadlineOpen: string := "“"
  const HeadlineClose: string := "” dediğinde beni uyandırırsın"

  /** `formatIdleHeadline`: the phrase, or the default when it is empty, in
      quotation marks followed by the wake-up sentence. */
  function FormatIdleHeadline(phrase: string): (r: string)
    ensures |r| > |HeadlineOpen| + |HeadlineClose|
  {
    HeadlineOpen + (if phrase == [] then DefaultPhrase else phrase) + HeadlineClose
  }

  /** Reads back the phrase an idle headline names. */
  function HeadlinePhrase(h: string): string
    requires |h| >= |HeadlineOpen| + |HeadlineClose|
  {
    h[|HeadlineOpen|..|h| - |HeadlineClose|]
  }

  /** The headline names the phrase it was made from (or the default), so two
      different non-empty phrases never share a headline. */
  lemma HeadlineNamesPhrase(phrase: string)
    ensures HeadlinePhrase(FormatIdleHeadline(phrase)) == (if phrase == [] then DefaultPhrase else phrase)
  {
    var p := if phrase == [] then DefaultPhrase else phrase;
    var h := FormatIdleHeadline(phrase);
    assert h[|HeadlineOpen|..|h| - |HeadlineClose|] == p;
  }
}

=== FILE: whitespace.dfy ===
/**
  Whitespace handling shared by every normalised form of a phrase or a
  transcript: the `\s` character class, `String.prototype.trim`, the
  `replace(/\s+/g, ' ')` collapse and their composition `sanitizeWhitespace`.
  An independent reference definition (`Join(Words(s), " ")`) pins down what
  the sanitiser computes.
 */
module Whitespace {

  /** The characters `\s` matches in an ECMAScript regular expression. They are
      exactly the characters `trim()` strips: the WhiteSpace and LineTerminator
      productions of ECMA-262 (sections 12.2 and 12.3). */
  predicate IsWhitespace(c: char) {
    || c == '\t' || c == '\n' || c == '\U{000B}' || c == '\U{000C}' || c == '\r'
    || c == ' ' || c == '\U{00A0}' || c == '\U{1680}'
    || ('\U{2000}' <= c <= '\U{200A}')
    || c == '\U{2028}' || c == '\U{2029}' || c == '\U{202F}' || c == '\U{205F}'
    || c == '\U{3000}' || c == '\U{FEFF}'
  }

  /** Every character of `s` is whitespace. */
  predicate AllWhitespace(s: string) {
    forall i :: 0 <= i < |s| ==> IsWhitespace(s[i])
  }

  /** Every whitespace character of `s` is a plain space. */
  predicate SpacesOnly(s: string) {
    forall i :: 0 <= i < |s| && IsWhitespace(s[i]) ==> s[i] == ' '
  }

  /** No two adjacent characters of `s` are both whitespace. */
  predicate NoDoubleSpace(s: string) {
    forall i :: 0 <= i < |s| - 1 && IsWhitespace(s[i]) ==> !IsWhitespace(s[i + 1])
  }

  /** Neither the first nor the last character of `s` is whitespace. */
  predicate Trimmed(s: string) {
    s == [] || (!IsWhitespace(s[0]) && !IsWhitespace(s[|s| - 1]))
  }

  /** The shape every output of `sanitizeWhitespace` has. */
  predicate IsSanitized(s: string) {
    Trimmed(s) && SpacesOnly(s) && NoDoubleSpace(s)
  }

  /** A non-empty run of non-whitespace characters. */
  predicate IsWord(w: string) {
    w != [] && forall i :: 0 <= i < |w| ==> !IsWhitespace(w[i])
  }

  /** The last character of `s` is whitespace. */
  predicate EndsInWhitespace(s: string) {
    s != [] && IsWhitespace(s[|s| - 1])
  }

  /** Leading whitespace removed (the start half of `trim()`). */
  function TrimStart(s: string): (r: string)
    ensures |r| <= |s|
    ensures r == [] || !IsWhitespace(r[0])
  {
    if s != [] && IsWhitespace(s[0]) then TrimStart(s[1..]) else s
  }

  /** `TrimStart` keeps a suffix and drops only whitespace. */
  lemma {:induction false} TrimStartSpec(s: string)
    ensures TrimStart(s) == s[|s| - |TrimStart(s)|..]
    ensures AllWhitespace(s[..|s| - |TrimStart(s)|])
  {
    if s != [] && IsWhitespace(s[0]) {
      TrimStartSpec(s[1..]);
      var k := |s| - |TrimStart(s)|;
      assert s[1..][k - 1..] == s[k..];
      assert s[..k] == [s[0]] + s[1..][..k - 1];
    }
  }

  /** Trailing whitespace removed (the end half of `trim()`). */
  function TrimEnd(s: string): (r: string)
    ensures |r| <= |s|
    ensures r == [] || !IsWhitespace(r[|r| - 1])
  {
    if s != [] && IsWhitespace(s[|s| - 1]) then TrimEnd(s[..|s| - 1]) else s
  }

  /** `TrimEnd` keeps a prefix and drops only whitespace. */
  lemma {:induction false} TrimEndSpec(s: string)
    ensures TrimEnd(s) == s[..|TrimEnd(s)|]
    ensures AllWhitespace(s[|TrimEnd(s)|..])
  {
    if s != [] && IsWhitespace(s[|s| - 1]) {
      TrimEndSpec(s[..|s| - 1]);
      var k := |TrimEnd(s)|;
      assert s[..|s| - 1][..k] == s[..k];
      assert s[k..] == s[..|s| - 1][k..] + [s[|s| - 1]];
    }
  }

  /** `String.prototype.trim`. */
  function Trim(s: string): string {
    TrimEnd(TrimStart(s))
  }

  /** `trim()` keeps one contiguous slice and drops only whitespace around it. */
  lemma TrimBounds(s: string) returns (a: nat, b: nat)
    ensures a <= b <= |s| && Trim(s) == s[a..b]
    ensures forall i :: 0 <= i < a ==> IsWhitespace(s[i])
    ensures forall i :: b <= i < |s| ==> IsWhitespace(s[i])
  {
    var t := TrimStart(s);
    TrimStartSpec(s);
    TrimEndSpec(t);
    a := |s| - |t|;
    b := a + |TrimEnd(t)|;
    SlicePieces(s, a, TrimEnd(t));
  }

  /** Whitespace before `a`, then `e`, then whitespace: the pieces of `s`
      as `TrimStart` and `TrimEnd` leave them. */
  lemma SlicePieces(s: string, a: nat, e: string)
    requires a + |e| <= |s| && AllWhitespace(s[..a])
    requires e == s[a..][..|e|] && AllWhitespace(s[a..][|e|..])
    ensures s[a..a + |e|] == e
    ensures forall i :: 0 <= i < a ==> IsWhitespace(s[i])
    ensures forall i :: a + |e| <= i < |s| ==> IsWhitespace(s[i])
  {
    assert forall i :: 0 <= i < a ==> s[i] == s[..a][i];
    assert forall i :: a + |e| <= i < |s| ==> s[i] == s[a..][|e|..][i - a - |e|];
    assert s[a..a + |e|] == s[a..][..|e|];
  }

  /** The trimmed string has no whitespace at either end, and it is empty
      exactly when the input is all whitespace. */
  lemma TrimSpec(s: string)
    ensures Trimmed(Trim(s))
    ensures Trim(s) == [] <==> AllWhitespace(s)
  {
    var t := TrimStart(s);
    TrimStartSpec(s);
    TrimEndSpec(t);
    assert t == [] ==> s[..|s|] == s;
  }

  /** `replace(/\s+/g, ' ')`: every maximal run of whitespace becomes one space. */
  function CollapseRuns(s: string): string
    decreases |s|
  {
    if s == [] then []
    else if IsWhitespace(s[0]) then " " + CollapseRuns(TrimStart(s[1..]))
    else [s[0]] + CollapseRuns(s[1..])
  }

  /** The collapse is empty only for the empty string, and starts with
      whitespace exactly when its input does. */
  lemma CollapseRunsHead(s: string)
    ensures CollapseRuns(s) == [] <==> s == []
    ensures CollapseRuns(s) != [] ==> (IsWhitespace(CollapseRuns(s)[0]) <==> IsWhitespace(s[0]))
  {
  }

  /** The collapse leaves only single plain spaces as whitespace. */
  lemma {:induction false} CollapseRunsShape(s: string)
    ensures SpacesOnly(CollapseRuns(s)) && NoDoubleSpace(CollapseRuns(s))
    decreases |s|
  {
    if s == [] {
    } else if IsWhitespace(s[0]) {
      var t := TrimStart(s[1..]);
      CollapseRunsShape(t);
      CollapseRunsHead(t);
      var rest := CollapseRuns(t);
      assert CollapseRuns(s) == " " + rest;
      assert rest == [] || !IsWhitespace(rest[0]);
    } else {
      CollapseRunsShape(s[1..]);
      assert CollapseRuns(s) == [s[0]] + CollapseRuns(s[1..]);
    }
  }

  /** The collapse introduces no non-whitespace character. */
  lemma {:induction false} CollapseRunsChars(s: string)
    ensures forall c :: c in CollapseRuns(s) && !IsWhitespace(c) ==> c in s
    decreases |s|
  {
    if s == [] {
    } else if IsWhitespace(s[0]) {
      var t := TrimStart(s[1..]);
      CollapseRunsChars(t);
      TrimStartSpec(s[1..]);
      SliceChars(s, |s| - |t|, |s|);
      assert t == s[|s| - |t|..|s|];
    } else {
      CollapseRunsChars(s[1..]);
    }
  }

  /** `sanitizeWhitespace`: collapse whitespace runs to one space, then trim. */
  function Sanitize(s: string): string {
    Trim(CollapseRuns(s))
  }

  /** The sanitised string has the sanitised shape (trimmed, plain single
      spaces only) and every other character of it comes from the input. */
  lemma SanitizeShape(s: string)
    ensures IsSanitized(Sanitize(s))
    ensures forall c :: c in Sanitize(s) && !IsWhitespace(c) ==> c in s
  {
    CollapseRunsShape(s);
    CollapseRunsChars(s);
    TrimKeepsShape(CollapseRuns(s));
    TrimSpec(CollapseRuns(s));
  }

  /** Trimming keeps the single-space shape and adds no character. */
  lemma TrimKeepsShape(s: string)
    ensures SpacesOnly(s) ==> SpacesOnly(Trim(s))
    ensures NoDoubleSpace(s) ==> NoDoubleSpace(Trim(s))
    ensures forall c :: c in Trim(s) ==> c in s
  {
    var t := TrimStart(s);
    var r := TrimEnd(t);
    TrimStartSpec(s);
    TrimEndSpec(t);
    SliceKeepsShape(s, |s| - |t|, |s| - |t| + |r|);
    SliceChars(s, |s| - |t|, |s| - |t| + |r|);
    assert r == s[|s| - |t|..|s| - |t| + |r|];
  }

  /** A contiguous slice keeps the single-space shape of its source. */
  lemma SliceKeepsShape(s: string, a: nat, b: nat)
    requires a <= b <= |s|
    ensures SpacesOnly(s) ==> SpacesOnly(s[a..b])
    ensures NoDoubleSpace(s) ==> NoDoubleSpace(s[a..b])
  {
    if NoDoubleSpace(s) {
      forall i | 0 <= i < b - a - 1 && IsWhitespace(s[a..b][i])
        ensures !IsWhitespace(s[a..b][i + 1])
      {
        assert s[a..b][i] == s[a + i] && s[a..b][i + 1] == s[a + i + 1];
      }
    }
  }

  /** Every character of a slice occurs in its source. */
  lemma SliceChars(s: string, a: nat, b: nat)
    requires a <= b <= |s|
    ensures forall c :: c in s[a..b] ==> c in s
  {
    forall c | c in s[a..b] ensures c in s {
      var k :| 0 <= k < b - a && s[a..b][k] == c;
      assert s[a + k] == c;
    }
  }

  /** A sanitised string is left alone by the sanitiser, and only a sanitised
      string is: the outputs of `Sanitize` are exactly its fixed points. */
  lemma SanitizeFixedPoints(s: string)
    ensures Sanitize(s) == s <==> IsSanitized(s)
  {
    SanitizeShape(s);
    if IsSanitized(s) {
      CollapseRunsFixes(s);
      TrimFixes(s);
    }
  }

  /** A trimmed string is left alone by `trim()`. */
  lemma TrimFixes(s: string)
    requires Trimmed(s)
    ensures Trim(s) == s
  {
  }

  /** `sanitizeWhitespace` is idempotent. */
  lemma SanitizeIdempotent(s: string)
    ensures Sanitize(Sanitize(s)) == Sanitize(s)
  {
    SanitizeShape(s);
    SanitizeFixedPoints(Sanitize(s));
  }

  lemma {:induction false} CollapseRunsFixes(s: string)
    requires SpacesOnly(s) && NoDoubleSpace(s)
    ensures CollapseRuns(s) == s
    decreases |s|
  {
    if s != [] {
      SliceKeepsShape(s, 1, |s|);
      assert s[1..|s|] == s[1..];
      CollapseRunsFixes(s[1..]);
      if IsWhitespace(s[0]) {
        assert s[1..] == [] || !IsWhitespace(s[1..][0]);
        assert TrimStart(s[1..]) == s[1..];
      }
    }
  }

  /** The sanitised string is empty exactly when the input is all whitespace. */
  lemma SanitizeEmpty(s: string)
    ensures Sanitize(s) == [] <==> AllWhitespace(s)
  {
    TrimSpec(CollapseRuns(s));
    CollapseRunsBlank(s);
  }

  /** The collapse is all whitespace exactly when its input is. */
  lemma {:induction false} CollapseRunsBlank(s: string)
    ensures AllWhitespace(CollapseRuns(s)) <==> AllWhitespace(s)
    decreases |s|
  {
    if s != [] {
      if IsWhitespace(s[0]) {
        var t := TrimStart(s[1..]);
        CollapseRunsBlank(t);
        TrimStartGone(s[1..]);
        assert AllWhitespace(s) <==> AllWhitespace(s[1..]) by {
          assert forall i :: 0 < i < |s| ==> s[i] == s[1..][i - 1];
        }
        assert AllWhitespace(t) <==> t == [];
        assert AllWhitespace(CollapseRuns(s)) <==> AllWhitespace(CollapseRuns(t)) by {
          assert CollapseRuns(s) == " " + CollapseRuns(t);
          assert forall i :: 0 < i < |CollapseRuns(s)| ==> CollapseRuns(s)[i] == CollapseRuns(t)[i - 1];
        }
      } else {
        assert !AllWhitespace(s);
        assert !AllWhitespace(CollapseRuns(s));
      }
    }
  }

  /** Leading whitespace removal leaves nothing exactly when all is whitespace. */
  lemma {:induction false} TrimStartGone(s: string)
    ensures TrimStart(s) == [] <==> AllWhitespace(s)
  {
    if s != [] && IsWhitespace(s[0]) {
      TrimStartGone(s[1..]);
      assert forall i :: 0 < i < |s| ==> s[i] == s[1..][i - 1];
    }
  }

  // ----- the reference definition: words joined by single spaces -----

  /** The longest whitespace-free prefix of `s`. */
  function TakeWord(s: string): (w: string)
    ensures |w| <= |s|
    ensures s != [] && !IsWhitespace(s[0]) ==> w != []
  {
    if s == [] || IsWhitespace(s[0]) then [] else [s[0]] + TakeWord(s[1..])
  }

  /** `TakeWord` returns a prefix free of whitespace. */
  lemma {:induction false} TakeWordSpec(s: string)
    ensures TakeWord(s) == s[..|TakeWord(s)|]
    ensures forall i :: 0 <= i < |TakeWord(s)| ==> !IsWhitespace(s[i])
  {
    if s != [] && !IsWhitespace(s[0]) {
      TakeWordSpec(s[1..]);
      assert [s[0]] + s[1..][..|TakeWord(s)| - 1] == s[..|TakeWord(s)|];
    }
  }

  /** `TakeWord` stops only at whitespace or at the end. */
  lemma {:induction false} TakeWordStops(s: string)
    ensures |TakeWord(s)| < |s| ==> IsWhitespace(s[|TakeWord(s)|])
  {
    if s != [] && !IsWhitespace(s[0]) {
      TakeWordStops(s[1..]);
    }
  }

  /** The maximal whitespace-free runs of `s`, in order of appearance. */
  function Words(s: string): (ws: seq<string>)
    decreases |s|
  {
    var t := TrimStart(s);
    if t == [] then []
    else
      var w := TakeWord(t);
      [w] + Words(t[|w|..])
  }

  /** Every element of `Words(s)` is a word. */
  lemma {:induction false} WordsAreWords(s: string)
    ensures forall i :: 0 <= i < |Words(s)| ==> IsWord(Words(s)[i])
    decreases |s|
  {
    var t := TrimStart(s);
    if t != [] {
      var w := TakeWord(t);
      TakeWordSpec(t);
      WordsAreWords(t[|w|..]);
      assert IsWord(w);
    }
  }

  /** `Array.prototype.join(sep)` on strings. */
  function Join(parts: seq<string>, sep: string): string {
    if parts == [] then []
    else if |parts| == 1 then parts[0]
    else parts[0] + sep + Join(parts[1..], sep)
  }

  /** Joining words with single spaces yields a trimmed string that is empty
      only when there are no words. */
  lemma {:induction false} JoinedWordsTrimmed(ws: seq<string>)
    requires forall i :: 0 <= i < |ws| ==> IsWord(ws[i])
    ensures Join(ws, " ") == [] <==> ws == []
    ensures Trimmed(Join(ws, " "))
  {
    if |ws| > 1 {
      JoinedWordsTrimmed(ws[1..]);
      var rest := Join(ws[1..], " ");
      assert Join(ws, " ") == ws[0] + " " + rest;
      assert (ws[0] + " " + rest)[0] == ws[0][0];
      assert (ws[0] + " " + rest)[|ws[0] + " " + rest| - 1] == rest[|rest| - 1];
    } else if |ws| == 1 {
      assert IsWord(ws[0]);
    }
  }

  /** The sanitised string is the words of the input joined by single spaces:
      an independent description of what `sanitizeWhitespace` computes. */
  lemma SanitizeJoinsWords(s: string)
    ensures Sanitize(s) == Join(Words(s), " ")
  {
    var t := TrimStart(s);
    CollapseRunsSplit(s);
    CollapseRunsUnled(t);
    WordsAreWords(t);
    JoinedWordsTrimmed(Words(t));
    TrimAround(Lead(s), Join(Words(t), " "), Trailer(t));
  }

  /** The space the collapse leaves at the start of `s`, if any. */
  function Lead(s: string): string {
    if s != [] && IsWhitespace(s[0]) then " " else ""
  }

  /** The space the collapse leaves at the end of a string that does not start
      with whitespace, if any. */
  function Trailer(s: string): string {
    if EndsInWhitespace(s) then " " else ""
  }

  /** The collapse of `s` is its leading space, if any, followed by the collapse
      of the rest after its leading whitespace, which has the same words. */
  lemma CollapseRunsSplit(s: string)
    ensures CollapseRuns(s) == Lead(s) + CollapseRuns(TrimStart(s))
    ensures Words(s) == Words(TrimStart(s))
  {
    if s != [] && IsWhitespace(s[0]) {
      CollapseRunsLead(s);
    } else {
      assert TrimStart(s) == s;
    }
  }

  /** A string that starts with whitespace collapses to a space followed by the
      collapse of what follows its leading run, and has the words of that rest. */
  lemma CollapseRunsLead(s: string)
    requires s != [] && IsWhitespace(s[0])
    ensures CollapseRuns(s) == " " + CollapseRuns(TrimStart(s))
    ensures Words(s) == Words(TrimStart(s))
  {
    assert TrimStart(s) == TrimStart(s[1..]);
    assert TrimStart(TrimStart(s)) == TrimStart(s);
  }

  /** Trimming removes at most one space on either side of a trimmed string. */
  lemma TrimAround(lead: string, j: string, tail: string)
    requires lead == "" || lead == " "
    requires tail == "" || tail == " "
    requires Trimmed(j) && (j == [] ==> tail == "")
    ensures Trim(lead + (j + tail)) == j
  {
    if j == [] {
      assert lead + (j + tail) == lead;
      assert TrimStart(lead) == [] by {
        if lead != [] {
          assert lead[1..] == [];
        }
      }
    } else {
      TrimStartLead(lead, j + tail);
      TrimEndTail(j, tail);
    }
  }

  /** At most one leading space in front of a string that does not start with
      whitespace is what `TrimStart` removes. */
  lemma TrimStartLead(lead: string, y: string)
    requires lead == "" || lead == " "
    requires y != [] && !IsWhitespace(y[0])
    ensures TrimStart(lead + y) == y
  {
    if lead != [] {
      assert (lead + y)[1..] == y;
    } else {
      assert lead + y == y;
    }
  }

  /** At most one trailing space after a string that does not end in
      whitespace is what `TrimEnd` removes. */
  lemma TrimEndTail(y: string, tail: string)
    requires tail == "" || tail == " "
    requires y != [] && !IsWhitespace(y[|y| - 1])
    ensures TrimEnd(y + tail) == y
  {
    if tail != [] {
      assert (y + tail)[..|y + tail| - 1] == y;
    } else {
      assert y + tail == y;
    }
  }

  /** A whitespace-free prefix passes through the collapse unchanged. */
  lemma {:induction false} CollapseRunsWordPrefix(s: string, k: nat)
    requires k <= |s|
    requires forall i :: 0 <= i < k ==> !IsWhitespace(s[i])
    ensures CollapseRuns(s) == s[..k] + CollapseRuns(s[k..])
    decreases k
  {
    if k == 0 {
      assert s[..0] + CollapseRuns(s[0..]) == CollapseRuns(s);
    } else {
      assert !IsWhitespace(s[0]);
      assert CollapseRuns(s) == [s[0]] + CollapseRuns(s[1..]);
      CollapseRunsWordPrefix(s[1..], k - 1);
      assert s[1..][k - 1..] == s[k..];
      assert [s[0]] + s[1..][..k - 1] == s[..k];
    }
  }

  /** The collapse of a string that does not start with whitespace: its words
      joined by single spaces, plus one space when it ends in whitespace. */
  lemma {:induction false} CollapseRunsUnled(s: string)
    requires s == [] || !IsWhitespace(s[0])
    ensures CollapseRuns(s) == Join(Words(s), " ") + Trailer(s)
    decreases |s|
  {
    if s != [] {
      var rest := s[|TakeWord(s)|..];
      if rest == [] {
        CollapseRunsOneWord(s);
      } else {
        var t := TrimStart(rest);
        CollapseRunsUnled(t);
        if t == [] {
          CollapseRunsLastWord(s);
        } else {
          CollapseRunsNextWord(s);
        }
      }
    }
  }

  /** A string that starts with a word splits into that word and the rest,
      whose collapse follows the word's characters. */
  lemma WordsUnled(s: string)
    requires s != [] && !IsWhitespace(s[0])
    ensures Words(s) == [TakeWord(s)] + Words(s[|TakeWord(s)|..])
    ensures CollapseRuns(s) == TakeWord(s) + CollapseRuns(s[|TakeWord(s)|..])
  {
    assert TrimStart(s) == s;
    TakeWordSpec(s);
    CollapseRunsWordPrefix(s, |TakeWord(s)|);
  }

  /** The collapse of a single word with nothing after it. */
  lemma CollapseRunsOneWord(s: string)
    requires s != [] && !IsWhitespace(s[0])
    requires s[|TakeWord(s)|..] == []
    ensures CollapseRuns(s) == Join(Words(s), " ") + Trailer(s)
  {
    var w := TakeWord(s);
    assert Words(s) == [w] && CollapseRuns(s) == w + [] by {
      WordsUnled(s);
    }
    assert Trailer(s) == "" by {
      TakeWordSpec(s);
      assert !IsWhitespace(s[|s| - 1]);
    }
  }

  /** The collapse of a word followed by whitespace only. */
  lemma CollapseRunsLastWord(s: string)
    requires s != [] && !IsWhitespace(s[0])
    requires s[|TakeWord(s)|..] != [] && TrimStart(s[|TakeWord(s)|..]) == []
    ensures CollapseRuns(s) == Join(Words(s), " ") + Trailer(s)
  {
    var w := TakeWord(s);
    var rest := s[|w|..];
    assert Words(s) == [w] + Words(rest) && CollapseRuns(s) == w + CollapseRuns(rest) by {
      WordsUnled(s);
    }
    assert Words(rest) == [] && CollapseRuns(rest) == " " by {
      CollapseRunsLead(rest);
    }
    assert Trailer(s) == " " by {
      TrimStartGone(rest);
      assert s[|s| - 1] == rest[|rest| - 1];
    }
  }

  /** The collapse of a word followed by whitespace and further words, given
      the collapse of the part after that whitespace. */
  lemma CollapseRunsNextWord(s: string)
    requires s != [] && !IsWhitespace(s[0])
    requires s[|TakeWord(s)|..] != [] && TrimStart(s[|TakeWord(s)|..]) != []
    requires var t := TrimStart(s[|TakeWord(s)|..]);
      CollapseRuns(t) == Join(Words(t), " ") + Trailer(t)
    ensures CollapseRuns(s) == Join(Words(s), " ") + Trailer(s)
  {
    var w := TakeWord(s);
    var rest := s[|w|..];
    var t := TrimStart(rest);
    NextWordJoin(s, w, rest, t);
    NextWordCollapse(s, w, rest, t);
    NextWordTrailer(s, w, rest, t);
    ConcatAssoc(w, " ", Join(Words(t), " "), Trailer(t));
  }

  /** A word followed by whitespace and a non-empty rest `t` ends like `t`. */
  lemma NextWordTrailer(s: string, w: string, rest: string, t: string)
    requires w == TakeWord(s) && rest == s[|w|..] && t == TrimStart(rest)
    requires rest != [] && t != []
    ensures Trailer(s) == Trailer(t)
  {
    TrimStartLast(rest);
    assert s[|s| - 1] == rest[|rest| - 1];
  }

  /** The words of a word followed by whitespace and a non-empty rest `t`. */
  lemma NextWordJoin(s: string, w: string, rest: string, t: string)
    requires s != [] && !IsWhitespace(s[0])
    requires w == TakeWord(s) && rest == s[|w|..] && t == TrimStart(rest)
    requires rest != [] && t != []
    ensures Join(Words(s), " ") == w + " " + Join(Words(t), " ")
  {
    TakeWordStops(s);
    assert Words(s) == [w] + Words(rest) by {
      WordsUnled(s);
    }
    assert Words(rest) == Words(t) by {
      CollapseRunsLead(rest);
    }
    assert Words(t) != [] by {
      WordsUnled(t);
    }
    JoinCons(w, Words(t), " ");
  }

  /** The collapse of a word followed by whitespace and the rest `t`. */
  lemma NextWordCollapse(s: string, w: string, rest: string, t: string)
    requires s != [] && !IsWhitespace(s[0])
    requires w == TakeWord(s) && rest == s[|w|..] && t == TrimStart(rest)
    requires rest != []
    ensures CollapseRuns(s) == w + (" " + CollapseRuns(t))
  {
    TakeWordStops(s);
    WordsUnled(s);
    CollapseRunsLead(rest);
  }

  /** Leading whitespace removal keeps the last character of what remains. */
  lemma {:induction false} TrimStartLast(s: string)
    requires TrimStart(s) != []
    ensures s[|s| - 1] == TrimStart(s)[|TrimStart(s)| - 1]
  {
    if IsWhitespace(s[0]) {
      TrimStartLast(s[1..]);
    }
  }

  lemma JoinCons(w: string, ws: seq<string>, sep: string)
    requires ws != []
    ensures Join([w] + ws, sep) == w + sep + Join(ws, sep)
  {
    assert ([w] + ws)[1..] == ws;
  }

  lemma ConcatAssoc(a: string, b: string, c: string, d: string)
    ensures a + b + c + d == a + (b + (c + d))
  {
  }

  // ----- words across a concatenation -----

  /** Two strings meet at whitespace (or one of them is empty), so no word
      runs across the seam. */
  predicate SplitAtSpace(a: string, b: string) {
    a == [] || b == [] || IsWhitespace(a[|a| - 1]) || IsWhitespace(b[0])
  }

  /** The words of each string in turn. */
  function AllWords(ts: seq<string>): seq<string> {
    if ts == [] then [] else Words(ts[0]) + AllWords(ts[1..])
  }

  /** Leading whitespace does not change the words. */
  lemma WordsDropSpace(s: string)
    requires s != [] && IsWhitespace(s[0])
    ensures Words(s) == Words(s[1..])
  {
    assert TrimStart(s) == TrimStart(s[1..]);
  }

  /** The first word stops at the seam. */
  lemma {:induction false} TakeWordAppend(a: string, b: string)
    requires a != [] && SplitAtSpace(a, b)
    ensures TakeWord(a + b) == TakeWord(a)
  {
    if !IsWhitespace(a[0]) {
      assert (a + b)[1..] == a[1..] + b;
      if a[1..] != [] {
        assert a[1..][|a[1..]| - 1] == a[|a| - 1];
        TakeWordAppend(a[1..], b);
      }
    }
  }

  /** Words of a concatenation that meets at whitespace are the words of
      each side. */
  lemma {:induction false} WordsAppend(a: string, b: string)
    requires SplitAtSpace(a, b)
    ensures Words(a + b) == Words(a) + Words(b)
    decreases |a|
  {
    if a == [] {
      assert a + b == b;
    } else if IsWhitespace(a[0]) {
      SpaceSeam(a, b);
      WordsAppend(a[1..], b);
    } else {
      WordsAppendWord(a, b);
    }
  }

  /** Dropping the leading whitespace of `a` keeps the words and the seam. */
  lemma SpaceSeam(a: string, b: string)
    requires a != [] && IsWhitespace(a[0]) && SplitAtSpace(a, b)
    ensures Words(a) == Words(a[1..]) && Words(a + b) == Words(a[1..] + b)
    ensures SplitAtSpace(a[1..], b)
  {
    WordsDropSpace(a);
    WordsDropSpace(a + b);
    assert (a + b)[1..] == a[1..] + b;
    if a[1..] != [] {
      assert a[1..][|a[1..]| - 1] == a[|a| - 1];
    }
  }

  /** The case of `WordsAppend` where `a` starts with a word. */
  lemma {:induction false} WordsAppendWord(a: string, b: string)
    requires a != [] && !IsWhitespace(a[0]) && SplitAtSpace(a, b)
    ensures Words(a + b) == Words(a) + Words(b)
    decreases |a|, 0
  {
    var w := TakeWord(a);
    var rest := a[|w|..];
    FirstWordSeam(a, b);
    WordsAppend(rest, b);
    assert [w] + (Words(rest) + Words(b)) == ([w] + Words(rest)) + Words(b);
  }

  /** The first word of `a` is the first word of `a + b`, and what follows
      it still meets `b` at whitespace. */
  lemma FirstWordSeam(a: string, b: string)
    requires a != [] && !IsWhitespace(a[0]) && SplitAtSpace(a, b)
    ensures var w := TakeWord(a);
      && 0 < |w| <= |a|
      && Words(a) == [w] + Words(a[|w|..])
      && Words(a + b) == [w] + Words(a[|w|..] + b)
      && SplitAtSpace(a[|w|..], b)
  {
    var w := TakeWord(a);
    TakeWordAppend(a, b);
    var rest := a[|w|..];
    assert (a + b)[|w|..] == rest + b;
    WordsHead(a);
    WordsHead(a + b);
    if rest != [] {
      assert rest[|rest| - 1] == a[|a| - 1];
    }
  }

  /** A string that starts with a word: that word, then the words after it. */
  lemma WordsHead(s: string)
    requires s != [] && !IsWhitespace(s[0])
    ensures Words(s) == [TakeWord(s)] + Words(s[|TakeWord(s)|..])
  {
    assert TrimStart(s) == s;
  }

  /** Joining with a space adds no word and splits none. */
  lemma JoinSpaceWords(a: string, b: string)
    ensures Words(a + " " + b) == Words(a) + Words(b)
  {
    var sp := " ";
    var l := a + sp;
    assert SplitAtSpace(a, sp) by { assert IsWhitespace(sp[0]); }
    assert SplitAtSpace(l, b) by { assert l[|l| - 1] == ' '; }
    SpaceNoWords();
    WordsAppend(a, sp);
    WordsAppend(l, b);
  }

  /** A single space has no words. */
  lemma SpaceNoWords()
    ensures Words(" ") == []
  {
    assert TrimStart(" ") == TrimStart([]);
  }

  /** The words of strings joined by spaces are the words of each string, in
      order. */
  lemma {:induction false} JoinWords(ts: seq<string>)
    ensures Words(Join(ts, " ")) == AllWords(ts)
  {
    if |ts| == 1 {
      assert AllWords(ts[1..]) == [];
    } else if |ts| > 1 {
      JoinWords(ts[1..]);
      JoinSpaceWords(ts[0], Join(ts[1..], " "));
    }
  }

  /** Trimming does not change the words. */
  lemma TrimWords(s: string)
    ensures Words(Trim(s)) == Words(s)
  {
    var a, b := TrimBounds(s);
    assert s == s[..a] + s[a..b] + s[b..];
    WordsAround(s[..a], s[a..b], s[b..]);
  }

  /** Whitespace around a string adds no words. */
  lemma WordsAround(p: string, m: string, q: string)
    requires forall i :: 0 <= i < |p| ==> IsWhitespace(p[i])
    requires forall i :: 0 <= i < |q| ==> IsWhitespace(q[i])
    ensures Words(p + m + q) == Words(m)
  {
    WordsAppend(p + m, q);
    WordsAppend(p, m);
    AllBlankNoWords(p);
    AllBlankNoWords(q);
  }

  /** A string of whitespace has no words. */
  lemma {:induction false} AllBlankNoWords(s: string)
    requires forall i :: 0 <= i < |s| ==> IsWhitespace(s[i])
    ensures Words(s) == []
  {
    if s != [] {
      WordsDropSpace(s);
      AllBlankNoWords(s[1..]);
    }
  }
}

=== FILE: wrappers.dfy ===
/** The optional value used where the program has `null` or may fail. */
module Wrappers {

  datatype Option<T> = None | Some(value: T)
}
